=== FILE: README.md ===
# Smart alarm clock — a Dafny model of its scheduling and lifecycle logic

The smart alarm clock is a browser app. It keeps a list of alarms, each with:

- a label;
- an `HH:MM` time;
- optional repeat weekdays;
- a YouTube ringtone;
- an enabled switch;
- a snooze length.

Once a second a notification handler checks the list and fires the alarms that are due. A fired alarm rings in a popup, where it can be stopped or snoozed. The editor validates the form and builds the alarm it saves. As the label is typed, the editor searches for a matching ringtone.

This project models that logic with React, timers and browser APIs stripped away. Time is an explicit input:

- the minute of the day;
- the short weekday name;
- the day of the month;
- a millisecond stamp standing for `Date.now()`.

Each part keeps the form of its source:

- **Trigger check** (`notification_handler.dfy`). `checkAlarms` is the method `TriggerEngine.CheckAlarms`, a loop over the list that updates the dedup key set in place. The key set is an insertion-ordered, duplicate-free sequence. The loop is proved to compute `Run`, a fold of one visit (`Record`) over the list, and the lemmas about `Run` state what a tick promises:
  - only due alarms fire;
  - a key is recorded exactly when its alarm fires;
  - the set stays at 100 keys or fewer, and eviction drops exactly the 50 oldest;
  - every due alarm fires;
  - a second identical tick is silent.
- **Page** (`alarm_store.dfy`).
  - The list updaters are pure functions with pointwise contracts.
  - The page's state is the class `AlarmClockApp`. It holds the list, the alarm being edited, and the one-slot ringing session (trigger, stop, snooze), together with the `onSave` dispatch.
  - `Tick` wires the engine to the session.
- **Editor** (`alarm_modal.dfy`).
  - Repeat-day toggling is a function.
  - The form is the class `AlarmEditor`. Its methods cover the load effect, the label-gating effect and the two halves of `performYouTubeSearch`. Its `Save` function is `handleSave`'s validation and construction.
- **Pure helpers**:
  - the repeat summary and the next-occurrence day (`alarm_manager.dfy`);
  - the elapsed-time text and the key dispatch (`alarm_popup.dfy`);
  - the search-query enrichment (`search_query.dfy`);
  - the YouTube URL builders (`youtube.dfy`).
- **Shared vocabulary**:
  - the alarm record (`alarm.dfy`);
  - `HH:MM` text and its exact correspondence with minutes of the day (`time_of_day.dfy`);
  - string helpers standing for JavaScript's `toString`, `padStart`, `trim`, `toLowerCase`, `includes`, `join` and `split` (`text.dfy`);
  - `Option`/`Result` (`common.dfy`).

Two behaviours of the code are modelled as written:

- **Triggering replaces the ringing alarm.** `handleAlarmTrigger` puts the fired alarm in the ringing slot whatever is already there. When several alarms fire in one tick, the last one in list order is left ringing (`AlarmClockApp.Tick`).
- **The dedup key names the day of the month but not the month.** Keys are dropped only by eviction. A key recorded on the 5th at 07:00 therefore still silences the same alarm at 07:00 on the 5th of a later month, as long as the key has not been evicted (`SameDayOfMonthBlocked`). Once the set has filled up, a key is certain to be held through the next 50 fires. Depending on where in the eviction cycle it was recorded, it can survive up to 99.

## Model

| member | source | states |
|---|---|---|
| NotificationHandler.TriggerEngine.CheckAlarms | components/notification-handler.tsx:33-62 | One tick updates the key set and returns the fired alarms, exactly as the specification fold `Run` over the list in order prescribes. The key set stays duplicate-free with at most 100 entries. |
| NotificationHandler.TriggerEngine.Valid | components/notification-handler.tsx:54-58 | The handler's invariant: the key set is duplicate-free and holds at most 100 keys. The constructor establishes it, and `CheckAlarms` and `EvictOldest` keep it. |
| NotificationHandler.TriggerEngine.EvictOldest | components/notification-handler.tsx:54-58 | The delete loop over the first 50 entries leaves exactly the keys after the 50 oldest, in insertion order. |
| NotificationHandler.TriggerEngine.constructor | components/notification-handler.tsx:13 | The handler starts with an empty key set. |
| NotificationHandler.CurrentMinute | components/notification-handler.tsx:37 | Definition of `currentMinute`: the clock's `HH:MM`, a dash, then the day of the month. Its properties are the lemmas `KeyInjective`, `OtherDayOtherKey` and `SameDayOfMonthBlocked`, which read the minute and the day back out of a key. |
| NotificationHandler.Fires | components/notification-handler.tsx:46 | Definition of the gate: the alarm is due and its key is not held. Its properties are the lemmas `RecordAddsKeyIffFires`, `RunFiresOnlyDue` and `RunQuiet`. |
| NotificationHandler.Key | components/notification-handler.tsx:37-44 | Definition of the key `id-HH:MM-day`; its properties are the lemmas `KeyInjective`, `KeySameClock`, `OtherDayOtherKey` and `SameDayOfMonthBlocked`. |
| NotificationHandler.Due | components/notification-handler.tsx:40-48 | Definition of a due alarm: enabled, its `time` equal to the clock's `HH:MM`, and no repeat days or the current weekday among them. Its properties are the lemmas `RunFiresOnlyDue`, `DisabledNeverFires`, `FiresOnlyOnRepeatDays`, `FiresOnlyAtItsTime` and `RunFiresAllDue`. |
| NotificationHandler.Evict | components/notification-handler.tsx:55-58 | Definition of the clean-up: beyond 100 keys, the 50 oldest are dropped. Its properties are the lemma `RecordBounded` and the method `TriggerEngine.EvictOldest`. |
| NotificationHandler.Record | components/notification-handler.tsx:39-58 | Definition of one visit of an alarm; its properties are the lemmas `RecordAddsKeyIffFires` and `RecordBounded`. |
| NotificationHandler.Run | components/notification-handler.tsx:39-58 | Definition of one tick as a fold over the alarm list; its properties are the lemmas `RunStep`, `RunBounded`, `RunFiresOnlyDue`, `RunFiresAllDue`, `RunKeepsNewKeys`, `RunRecordsAllDue`, `RunQuiet` and `TickIdempotent`, and the method `TriggerEngine.CheckAlarms`. |
| NotificationHandler.DueAlarms | components/notification-handler.tsx:39-48 | Reference definition: the due alarms of the list, in list order. Its partner is the lemma `RunFiresAllDue`, which equates it with the alarms a tick fires. |
| NotificationHandler.KeysOf | components/notification-handler.tsx:44 | The keys of a list of alarms, one per alarm and in order. |
| NotificationHandler.RecordAddsKeyIffFires | components/notification-handler.tsx:46-52 | A visit adds the alarm's key if and only if the alarm fires. A visit that does not fire leaves the set as it was. |
| NotificationHandler.RecordBounded | components/notification-handler.tsx:51-58 | With at most 100 distinct keys before a visit, there are at most 100 distinct keys after it. At exactly 100, a fire drops the 50 oldest and appends the new key. |
| NotificationHandler.RunStep | components/notification-handler.tsx:39-58 | A tick over the first i + 1 alarms is the tick over the first i, then one visit of alarm i. |
| NotificationHandler.RunBounded | components/notification-handler.tsx:39-58 | The bound of 100 and the absence of duplicates survive a whole tick. |
| NotificationHandler.RunFiresOnlyDue | components/notification-handler.tsx:39-52 | Every fired alarm is in the list and is due: enabled, at its time, on a repeat day. No more alarms fire than the list holds. |
| NotificationHandler.DisabledNeverFires | components/notification-handler.tsx:40 | A disabled alarm never fires. |
| NotificationHandler.FiresOnlyOnRepeatDays | components/notification-handler.tsx:36-48 | An alarm with repeat days does not fire on any other weekday. |
| NotificationHandler.FiresOnlyAtItsTime | components/notification-handler.tsx:35-43 | An alarm fires only when its `time` text equals the current `HH:MM`. |
| NotificationHandler.RunKeysOrigin | components/notification-handler.tsx:51 | Every key held after a tick was held before it or belongs to an alarm fired in it. |
| NotificationHandler.KeySameClock | components/notification-handler.tsx:37-44 | At the same clock reading, alarms with different ids get different keys. |
| NotificationHandler.RunFiresAllDue | components/notification-handler.tsx:39-52 | When the due alarms have distinct ids and none of their keys is held, the tick fires exactly the due alarms, in list order. |
| NotificationHandler.RunKeepsNewKeys | components/notification-handler.tsx:51-58 | When at most 51 alarms fire, the set after the tick is a suffix of the old set followed by the keys of the fired alarms. |
| NotificationHandler.RunRecordsAllDue | components/notification-handler.tsx:46-58 | When no due alarm's key is held before the tick and at most 51 alarms fire in it, the key of every due alarm is the key of an alarm fired in the tick. |
| NotificationHandler.RunQuiet | components/notification-handler.tsx:46 | When every due alarm's key is already held, a tick fires nothing and changes nothing. |
| NotificationHandler.TickIdempotent | components/notification-handler.tsx:44-58 | A second tick at the same minute, weekday and day fires nothing and changes nothing. |
| NotificationHandler.LastIndexOf | components/notification-handler.tsx:44 | A proof helper for `KeyInjective`, with no counterpart in the source. It returns an index holding the character with no later occurrence, and `None` exactly when the character is absent. |
| NotificationHandler.LastIndexOfPastTail | components/notification-handler.tsx:37 | The last dash of a key is the one before the day of the month, which holds no dash. |
| NotificationHandler.KeyInjective | components/notification-handler.tsx:37-44 | Equal keys mean the same alarm id, the same minute and the same day of the month. |
| NotificationHandler.OtherDayOtherKey | components/notification-handler.tsx:37 | A key recorded on one day of the month never blocks the alarm on another day. |
| NotificationHandler.SameDayOfMonthBlocked | components/notification-handler.tsx:37-46 | A key still held from the same minute and day of the month blocks the alarm, whatever the month. |
| AlarmStore.Replaced | page.tsx:58-60 | `updateAlarm`'s map: same length; an element is the update exactly where its id matches, and is unchanged everywhere else. |
| AlarmStore.Removed | page.tsx:62-64 | `deleteAlarm`'s filter: the survivors are exactly the elements with another id. |
| AlarmStore.Toggled | page.tsx:66-68 | `toggleAlarm`'s map: same length; `enabled` is flipped exactly on the matching ids. |
| AlarmStore.RemovedConcat | page.tsx:63 | Deleting distributes over concatenation, so the survivors keep their order. |
| AlarmStore.RemovedNoMatch | page.tsx:63 | Deleting an id no alarm has changes nothing. |
| AlarmStore.AddThenDelete | page.tsx:55-63 | Appending an alarm with a new id and then deleting that id restores the list. |
| AlarmStore.ReplacedNoMatch | page.tsx:59 | Updating an alarm that is no longer listed changes nothing. |
| AlarmStore.ToggleTwice | page.tsx:67 | Toggling the same id twice is the identity. |
| AlarmStore.ToggleOnlyEnabled | page.tsx:67 | Toggling changes no field but `enabled`, and changes it exactly on the matching ids. |
| AlarmStore.SnoozeMinute | page.tsx:92-93 | Definition of the snooze minute: now plus the snooze length, wrapping past midnight modulo 1440. Its properties are the lemmas `SnoozedAlarm` and `SnoozedDueExactly`. |
| AlarmStore.SnoozedAlarm | page.tsx:88-101 | The snoozed copy has an id prefixed by the original id and "-snooze-", a time that reads back as (now + snoozeMinutes) mod 1440, no repeat days, and the label followed by " (Snoozed)". Every other field is copied. |
| AlarmStore.SnoozedDueExactly | page.tsx:92-99 | The snoozed copy is due on any weekday, exactly at the snooze minute, provided the ringing alarm was enabled. |
| AlarmStore.SnoozedIdIsNew | page.tsx:97 | The snoozed copy's id differs from the original's. |
| AlarmStore.AlarmClockApp.constructor | page.tsx:30-33 | The page starts with no alarms, the editor closed, nothing being edited, and nothing ringing. |
| AlarmStore.AlarmClockApp.AddAlarm | page.tsx:54-56 | Appends the alarm and changes nothing else. |
| AlarmStore.AlarmClockApp.UpdateAlarm | page.tsx:58-60 | The list becomes `Replaced` of the old list. |
| AlarmStore.AlarmClockApp.DeleteAlarm | page.tsx:62-64 | The list becomes `Removed` of the old list. |
| AlarmStore.AlarmClockApp.ToggleAlarm | page.tsx:66-68 | The list becomes `Toggled` of the old list. |
| AlarmStore.AlarmClockApp.OpenNewAlarm | page.tsx:120 | The "Add Alarm" button opens the editor and leaves the alarm being edited as it is. |
| AlarmStore.AlarmClockApp.HandleEditAlarm | page.tsx:70-73 | Records the alarm being edited and opens the editor. |
| AlarmStore.AlarmClockApp.HandleCloseModal | page.tsx:75-78 | Closes the editor and forgets the alarm being edited. |
| AlarmStore.AlarmClockApp.SaveAlarm | page.tsx:142 | `onSave` updates by id while an alarm is being edited, and appends otherwise. |
| AlarmStore.AlarmClockApp.SubmitEditor | components/alarm-modal.tsx:104-133 | A refused save reports why and changes nothing. An accepted save reaches `onSave` and closes the editor. |
| AlarmStore.AlarmClockApp.HandleAlarmTrigger | page.tsx:80-82 | The fired alarm takes the ringing slot unconditionally. |
| AlarmStore.AlarmClockApp.HandleStopAlarm | page.tsx:84-86 | Clears the ringing slot. |
| AlarmStore.AlarmClockApp.HandleSnoozeAlarm | page.tsx:88-106 | With an alarm ringing, exactly its snoozed copy is appended and the slot is cleared. With none ringing, nothing changes. |
| AlarmStore.AlarmClockApp.HandleKeyDown | page.tsx:108 | The keyboard shortcuts stop, snooze or do nothing, as the key dispatch says. |
| AlarmStore.AlarmClockApp.Tick | page.tsx:147 | One handler tick: the engine computes `Run`; every fired alarm is listed and due; the last one fired is left ringing (the previous one when none fired). |
| AlarmModal.ToggleRepeatDay | components/alarm-modal.tsx:100-102 | A selected day is removed, leaving exactly the other days. An unselected day is appended at the end. |
| AlarmModal.ToggleRemovesInPlace | components/alarm-modal.tsx:101 | Unselecting the k-th day of a duplicate-free list removes exactly that entry; the other days keep their order. |
| AlarmModal.ToggleTwiceSameDays | components/alarm-modal.tsx:101 | Toggling the same day twice leaves the same set of days. |
| AlarmModal.ToggleTwiceRestores | components/alarm-modal.tsx:101 | Starting from an unselected day, toggling it twice restores the exact list. |
| AlarmModal.ToggleKeepsDistinct | components/alarm-modal.tsx:101 | Toggling never creates a duplicate day. |
| AlarmModal.WithoutAppended | components/alarm-modal.tsx:101 | Filtering out a day appended to a list that lacked it gives the list back. |
| AlarmModal.WithoutDistinct | components/alarm-modal.tsx:101 | Filtering keeps a list duplicate-free. |
| AlarmModal.FreshId | components/alarm-modal.tsx:116 | A new alarm's id is "alarm-" followed by at least one digit, and those digits read back as the stamp. |
| AlarmModal.FreshIdsDiffer | components/alarm-modal.tsx:116 | Different stamps give different ids. |
| AlarmModal.AlarmEditor.constructor | components/alarm-modal.tsx:23-32 | The form starts with these defaults: empty label, "07:00", 12-hour mode, AM, no days, 10 minutes of snooze, no ringtone, no results, not searching, no error. |
| AlarmModal.AlarmEditor.Load | components/alarm-modal.tsx:36-61 | Editing copies the alarm into the form; AM/PM defaults to AM, and the ringtone becomes a video with its medium thumbnail. Otherwise the form, the results and the error are reset. |
| AlarmModal.AlarmEditor.ToggleDay | components/alarm-modal.tsx:100-102 | The repeat days become `ToggleRepeatDay` of the old days, and stay duplicate-free. |
| AlarmModal.SearchGate | components/alarm-modal.tsx:64 | Definition of the search test on the label; its properties are the method `AlarmEditor.SetLabel` and the lemma `SearchGateCountsCodeUnits`. |
| AlarmModal.SearchGateCountsCodeUnits | components/alarm-modal.tsx:64 | A letter followed by one emoji beyond U+FFFF passes the length test: two characters, but three UTF-16 code units. |
| AlarmModal.AlarmEditor.SetLabel | components/alarm-modal.tsx:63-73 | A search is scheduled for the label exactly when its trimmed form is non-empty and its JavaScript `length` is more than two UTF-16 code units. Otherwise the results and the selected ringtone are cleared. |
| AlarmModal.ReportsError | components/alarm-modal.tsx:82 | Definition of the test `result.error`: an error is present and is not the empty text. Its property is the method `AlarmEditor.FinishSearch`. |
| AlarmModal.AlarmEditor.StartSearch | components/alarm-modal.tsx:76-77 | A search sets the searching flag and clears the error. |
| AlarmModal.AlarmEditor.FinishSearch | components/alarm-modal.tsx:79-97 | The outcome of a search:<br>• a throw records "Failed to search for songs" and empties the results;<br>• a non-empty error records that error and empties the results;<br>• otherwise the results are set, and the first video is selected only when nothing was selected and there is one.<br>Searching always ends. |
| AlarmModal.AlarmEditor.Save | components/alarm-modal.tsx:104-133 | The label is checked first: blank gives `LabelRequired`. A missing ringtone gives `RingtoneRequired`. Otherwise the saved alarm:<br>• is enabled;<br>• has a trimmed, non-empty label;<br>• has no AM/PM in 24-hour mode;<br>• keeps the editing id, or gets a fresh id;<br>• rings the selected video;<br>• takes everything else from the form. |
| AlarmModal.AlarmEditor.SavedLabelIsTrimmed | components/alarm-modal.tsx:117 | Trimming a saved label again changes nothing. |
| AlarmModal.AlarmEditor.SavedAlarmIsDue | components/alarm-modal.tsx:115-129 | A saved alarm with a valid time is due at that minute on each of its repeat days, or on any day when it has none. |
| AlarmManager.FormatRepeatDays | components/alarm-manager.tsx:17-21 | The summary is "Once" for no days and "Daily" for seven. |
| AlarmManager.RepeatSummaryListsDays | components/alarm-manager.tsx:20 | For other lengths, splitting the summary at ", " gives the stored days back in order. |
| AlarmManager.DistinctCount | components/alarm-manager.tsx:19 | A duplicate-free list has as many distinct elements as entries. |
| AlarmManager.DailyIffEveryWeekday | components/alarm-manager.tsx:19 | For the day lists the editor produces, the summary is "Daily" if and only if every weekday is selected. |
| AlarmManager.DailyIffSeven | components/alarm-manager.tsx:19 | For weekday lists, the summary is "Daily" exactly for seven days: no shorter or longer list joins to that word. |
| AlarmManager.SevenIsEveryWeekday | components/alarm-manager.tsx:19 | Seven distinct weekday names are all of the weekdays. |
| AlarmManager.EveryWeekdayIsSeven | components/alarm-manager.tsx:19 | A distinct list of weekdays holding all seven has length 7. |
| AlarmManager.NextOccurrence | components/alarm-manager.tsx:23-40 | The next occurrence exists exactly for a valid time. It lies strictly after now and at most one day later, on a whole minute, and its clock reading is the alarm's `HH:MM`. |
| AlarmManager.NextOccurrenceIsFirst | components/alarm-manager.tsx:27-33 | No later instant showing the alarm's time comes before it. |
| AlarmManager.NextOccurrenceDay | components/alarm-manager.tsx:31-33 | The day is today exactly when the alarm's minute is strictly after now, else tomorrow, and the repeat days play no part. |
| AlarmPopup.FormatElapsedTime | components/alarm-popup.tsx:50-54 | The text is whole minutes, ':', then exactly two digits of seconds below 60. The parts read back as minutes*60 + seconds = the elapsed seconds. |
| AlarmPopup.ActionForKey | components/alarm-popup.tsx:119-126 | Escape and only Escape stops. A space key or the Space code snoozes when the key is not Escape. Anything else does nothing. |
| SearchQuery.Mentions | app/api/youtube/search/route.ts:19-43 | Definition of one branch's test: the text includes one of the category's keywords. Its properties are the lemmas `MentionsThree` and `FirstMatch`. |
| SearchQuery.ExtraFor | app/api/youtube/search/route.ts:19-47 | Reference definition: the first mentioned category's words from the keyword table, or "music songs". Its partner is the lemma `ChainIsTable`; `EnhanceSearchQuery`, `WorkoutBeforeWork` and `NoKeywordFallback` state what it gives. |
| SearchQuery.FirstMatch | app/api/youtube/search/route.ts:19-44 | The first category, from a given one on, whose keywords the text mentions; no earlier one matches. |
| SearchQuery.MentionsThree | app/api/youtube/search/route.ts:19 | A three-keyword category is mentioned exactly when one of its three `includes` tests holds. |
| SearchQuery.ChainExtra | app/api/youtube/search/route.ts:19-47 | Definition of the route's if/else chain, branch by branch; its properties are the lemmas `ChainPick` and `ChainIsTable`. |
| SearchQuery.ChainPick | app/api/youtube/search/route.ts:19-47 | When category k is the first one the label mentions, the chain returns that category's words; when none is mentioned it returns "music songs". |
| SearchQuery.ChainIsTable | app/api/youtube/search/route.ts:19-47 | The route's if/else chain picks the same words as the first-match table. |
| SearchQuery.EnhanceSearchQuery | app/api/youtube/search/route.ts:15-48 | The result is the query unchanged, a space, then the first mentioned category's words, or "music songs". It is strictly longer than the query. |
| SearchQuery.EnhanceIgnoresCase | app/api/youtube/search/route.ts:16 | Labels that lower-case alike get the same words appended. |
| SearchQuery.WorkoutBeforeWork | app/api/youtube/search/route.ts:19-22 | A label with "workout" mentions both the first and the second category, and the first one wins. |
| SearchQuery.NoKeywordFallback | app/api/youtube/search/route.ts:45-46 | A label with no keyword gets " music songs". |
| YouTube.QualityName | lib/youtube-api.ts:48-52 | The quality map: default to "default", medium to "mqdefault", high to "hqdefault", each name for one quality only. |
| YouTube.Thumbnail | lib/youtube-api.ts:47-54 | The base, the video id, then "/" + the quality's name + ".jpg". The quality defaults to medium. |
| YouTube.FilePart | lib/youtube-api.ts:53 | Definition of the URL's tail: "/", the quality's file name, ".jpg". Its properties are the lemmas `FilePartMarkers` and `ThumbnailInjective`. |
| YouTube.FilePartMarkers | lib/youtube-api.ts:53 | The quality can be read off fixed positions counted from the end of the tail: a "/" 12 characters from the end exactly for the default quality, otherwise an "m" 13 from the end exactly for medium. |
| YouTube.ThumbnailMarkers | lib/youtube-api.ts:53 | The quality can be read off fixed positions at the end of the URL. |
| YouTube.ThumbnailInjective | lib/youtube-api.ts:47-54 | Different video or quality gives a different thumbnail URL. |
| YouTube.EmbedUrl | lib/youtube-api.ts:42-44 | The embed base, the video id, then the fixed player parameters. The id is readable between them. |
| TimeOfDay.FormatHHMM | components/notification-handler.tsx:35 | `toTimeString().slice(0, 5)`: five characters, two digits, ':' and two digits. |
| TimeOfDay.ParseHHMM | components/alarm-manager.tsx:25 | Definition of reading `HH:MM` into a minute of the day, `None` for any other text; its properties are the lemmas `ParseFormatHHMM`, `FormatParseHHMM` and `FormatHHMMInjective`. |
| TimeOfDay.TwoDigitValue | components/alarm-manager.tsx:25 | Definition of `Number` on a two-digit field: ten times the first digit plus the second. Its property is the lemma `TwoDigitsValue`. |
| TimeOfDay.TwoDigitsValue | components/alarm-manager.tsx:25 | On two digits, this reading agrees with the general decimal reading `DigitsValue`. |
| TimeOfDay.ParseFormatHHMM | components/alarm-manager.tsx:25 | Reading back the `HH:MM` text of a minute gives that minute. |
| TimeOfDay.FormatParseHHMM | components/alarm-manager.tsx:25 | Every valid `HH:MM` text is the text of the minute it denotes. |
| TimeOfDay.FormatHHMMInjective | components/notification-handler.tsx:43 | Different minutes have different `HH:MM` texts. |
| Text.NatToString | components/notification-handler.tsx:37 | A number as a template literal prints it: only digits, no leading zero, one digit exactly below 10. |
| Text.DigitsValueOfNatToString | components/alarm-popup.tsx:53 | The printed digits read back as the number. |
| Text.NatToStringInjective | components/notification-handler.tsx:37 | Different numbers print differently. |
| Text.PadStart2 | components/alarm-popup.tsx:53 | `padStart(2, "0")`: digits only; exactly two below 100; the same value. |
| Text.Utf16Length | components/alarm-modal.tsx:64 | JavaScript's `length`: 0 for the empty text, at least one and at most two code units per character, and exactly the number of characters when none lies beyond U+FFFF. Together with `Utf16LengthAppend` this fixes the value on every text. |
| Text.Utf16LengthAppend | components/alarm-modal.tsx:64 | Appending a character adds two code units when it lies beyond U+FFFF and one otherwise. |
| Text.IsWhitespace | components/alarm-modal.tsx:64 | Definition of the characters `trim()` removes: the ECMAScript white space and line terminators. Its properties are the contract of `Trim` and the lemma `TrimIdempotent`. |
| Text.Trim | components/alarm-modal.tsx:64 | `trim()`: the result is a slice of the text with only whitespace before and after it. It is empty exactly for an all-whitespace text, and otherwise starts and ends with a non-whitespace character. |
| Text.TrimIdempotent | components/alarm-modal.tsx:117 | Trimming twice is trimming once. |
| Text.LowerChar | app/api/youtube/search/route.ts:16 | Definition of `toLowerCase` on one character, for ASCII letters only. Its properties are the contract of `ToLower` and the lemma `EnhanceIgnoresCase`. |
| Text.ToLower | app/api/youtube/search/route.ts:16 | Same length, each character lower-cased. |
| Text.ContainsLonger | app/api/youtube/search/route.ts:19-21 | A text containing "ab" contains "a". |
| Text.Join | components/alarm-manager.tsx:20 | Definition of `join(sep)`: the parts with the separator between consecutive ones. Its partner is the lemma `SplitJoin`, and the lemmas `RepeatSummaryListsDays` and `DailyIffSeven` state what it means for the day summary. |
| Text.Contains | app/api/youtube/search/route.ts:19-43 | Definition of `includes`: the text starts with the pattern at some position. Its partners are the lemmas `ContainsLonger` and `MentionsThree`. |
| Text.Split | components/alarm-manager.tsx:25 | `split(sep)` for a non-empty separator gives at least one part. Its partner is `Join`, through the lemmas `SplitJoin` and `RepeatSummaryListsDays`. |
| Text.SplitJoin | components/alarm-manager.tsx:20 | Splitting a joined list at its separator gives the list back when no element holds the separator's first character. |
| Seqs.Without | components/alarm-modal.tsx:101 | The filter keeps exactly the elements other than the one removed. |
| Seqs.WithoutConcat | components/alarm-modal.tsx:101 | Filtering a concatenation filters each part, so the kept elements keep their order and number. |
| Seqs.WithoutHead | components/notification-handler.tsx:57 | Deleting the oldest entry of a duplicate-free set by value drops its head. |

## Left out

- Browser persistence: the localStorage load and save of the list, with `JSON.parse` and `stringify`.
- Browser notifications: the permission request and `new Notification`.
- Audio: the oscillator beep and its fallback, which are browser audio with floating-point gains.
- The YouTube player: components/youtube-player.tsx is not part of this model.
- The clock display: components/clock-display.tsx is not part of this model.
- Timers are not modelled. A tick is an explicit call (`TriggerEngine.CheckAlarms`, `AlarmClockApp.Tick`). This covers:
  - the 1-second polling;
  - the popup's auto-dismiss and fade delays;
  - the 1-second search debounce, which `SetLabel` replaces by returning the query to search for.
- The current time is a parameter. Deriving it from `Date` is not modelled: the minute, the weekday name and the day of the month come from the caller. The local time zone and daylight-saving changes are not modelled.
- `searchYouTubeVideos` and the route's fetch to the YouTube API are network I/O. The search outcome is a parameter of `FinishSearch`.
- Rendering is not modelled: JSX, `alert`, `window.open` and `event.preventDefault`.
- Text.ToLower: folds only ASCII letters, not the full Unicode case mapping of `toLowerCase`.
- AlarmManager.NextOccurrence: returns `None` for any time that is not a canonical `HH:MM`, although JavaScript also reads forms such as "7:5". It returns the instant rather than the formatted "Wed, Oct 11" text.
- AlarmModal.AlarmEditor.FinishSearch: the selection test takes `hadSelection`, the selection seen when the search was scheduled, as a parameter. The source's callback reads that earlier render's `selectedVideo`.
- AlarmModal.AlarmEditor.SetLabel: runs the label effect on every call, while React skips it when the label is unchanged. It is also not run after `Load`, where React runs it when the loaded label differs from the previous one.
- NotificationHandler.TickIdempotent: requires two things. No due alarm's key may be held before the first tick. At most 51 alarms may fire in it. Beyond 51 fires, eviction inside that tick can drop keys recorded earlier in the same tick, and they would fire again.
- NotificationHandler.RunFiresAllDue: requires distinct ids among the due alarms. Two due alarms with the same id share a key, so only the first of them fires.
- AlarmStore.AlarmClockApp.Tick: assumes React applies the fired alarms' `setActiveAlarm` calls in order, so the last call wins.

=== FILE: alarm.dfy ===
/** The alarm record every component shares (page.tsx, `interface Alarm`). */
module Alarms {
  import opened Common

  datatype AmPm = AM | PM

  /** The ringtone reference `{ type: "youtube", videoId, title }`; the
      `type` tag has a single value and is left implicit. */
  datatype Ringtone = Ringtone(videoId: string, title: string)

  /** `labelText` is the source's `label` (a reserved word in Dafny).
      `time` is the 24-hour `HH:MM` text that the scheduler compares;
      `is24Hour` and `amPm` only affect how the editor shows it. */
  datatype Alarm = Alarm(
    id: string,
    labelText: string,
    time: string,
    is24Hour: bool,
    amPm: Option<AmPm>,
    repeat: seq<string>,
    ringtone: Ringtone,
    enabled: bool,
    snoozeMinutes: int)

  /** A search result (`YouTubeVideo`); the optional duration is never read. */
  datatype Video = Video(id: string, title: string, thumbnail: string)

  /** The editor's repeat-day buttons, in display order; also the short
      weekday names the clock reports. */
  const Weekdays: seq<string> := ["Mon", "Tue", "Wed", "Thu", "Fri", "Sat", "Sun"]
}

=== FILE: alarm_manager.dfy ===
/** The alarm list (components/alarm-manager.tsx): the repeat summary and the
    "Next:" day shown under every alarm. */
module AlarmManager {
  import opened Common
  import opened Seqs
  import opened Text
  import opened TimeOfDay
  import opened Alarms

  const RepeatSeparator: string := ", "

  /** `formatRepeatDays`: "Once" for no days, "Daily" for seven, otherwise
      the days joined by ", ". */
  function FormatRepeatDays(repeat: seq<string>): (text: string)
    ensures |repeat| == 0 ==> text == "Once"
    ensures |repeat| == 7 ==> text == "Daily"
  {
    if |repeat| == 0 then "Once"
    else if |repeat| == 7 then "Daily"
    else Join(repeat, RepeatSeparator)
  }

  /** The summary of a list of one to six days (or eight and more) lists
      exactly those days: splitting it at ", " gives the list back. */
  lemma RepeatSummaryListsDays(repeat: seq<string>)
    requires 0 < |repeat| && |repeat| != 7
    requires forall i :: 0 <= i < |repeat| ==> ',' !in repeat[i]
    ensures Split(FormatRepeatDays(repeat), RepeatSeparator) == repeat
  {
    SplitJoin(repeat, RepeatSeparator);
  }

  /** A duplicate-free sequence has as many distinct elements as entries. */
  lemma {:induction false} DistinctCount(s: seq<string>)
    requires NoDuplicates(s)
    ensures |set x | x in s| == |s|
  {
    if s != [] {
      DistinctCount(s[1..]);
      assert (set x | x in s) == {s[0]} + (set x | x in s[1..]);
      assert s[0] !in (set x | x in s[1..]);
    }
  }

  /** The editor only ever stores distinct weekday names. */
  predicate WeekdayList(repeat: seq<string>) {
    NoDuplicates(repeat) && forall i :: 0 <= i < |repeat| ==> repeat[i] in Weekdays
  }

  /** No weekday name holds a comma. */
  lemma WeekdayNoComma(d: string)
    requires d in Weekdays
    ensures ',' !in d
  {
  }

  /** For the day lists the editor produces, the summary reads "Daily"
      exactly when every weekday is selected. */
  lemma DailyIffEveryWeekday(repeat: seq<string>)
    requires WeekdayList(repeat)
    ensures FormatRepeatDays(repeat) == "Daily" <==> forall d :: d in Weekdays ==> d in repeat
  {
    DailyIffSeven(repeat);
    EveryWeekdayIsSeven(repeat);
    if |repeat| == 7 {
      SevenIsEveryWeekday(repeat);
    }
  }

  /** For weekday lists, "Daily" is shown exactly for seven days: no shorter
      list of weekday names joins to the word "Daily". */
  lemma DailyIffSeven(repeat: seq<string>)
    requires WeekdayList(repeat)
    ensures FormatRepeatDays(repeat) == "Daily" <==> |repeat| == 7
  {
    if 0 < |repeat| && |repeat| != 7 {
      forall i | 0 <= i < |repeat|
        ensures ',' !in repeat[i]
      {
        WeekdayNoComma(repeat[i]);
      }
      RepeatSummaryListsDays(repeat);
      SplitJoin(["Daily"], RepeatSeparator);
      assert Join(["Daily"], RepeatSeparator) == "Daily";
      assert repeat[0] != "Daily";
    }
  }

  /** Seven distinct weekday names are all of them. */
  lemma SevenIsEveryWeekday(repeat: seq<string>)
    requires WeekdayList(repeat) && |repeat| == 7
    ensures forall d :: d in Weekdays ==> d in repeat
  {
    var week := set x | x in Weekdays;
    var days := set x | x in repeat;
    assert NoDuplicates(Weekdays);
    DistinctCount(Weekdays);
    DistinctCount(repeat);
    assert days <= week;
    assert |week - days| == 0;
    assert week == days;
    forall d | d in Weekdays
      ensures d in repeat
    {
      assert d in week;
    }
  }

  /** A weekday list holding every weekday has seven entries. */
  lemma EveryWeekdayIsSeven(repeat: seq<string>)
    requires WeekdayList(repeat)
    ensures (forall d :: d in Weekdays ==> d in repeat) ==> |repeat| == 7
  {
    var week := set x | x in Weekdays;
    var days := set x | x in repeat;
    assert NoDuplicates(Weekdays);
    DistinctCount(Weekdays);
    DistinctCount(repeat);
    if forall d :: d in Weekdays ==> d in repeat {
      assert days == week;
    }
  }

  const MsPerMinute: int := 60000
  const MsPerDay: int := 86400000

  /** A time of day in milliseconds after local midnight. */
  type MsOfDay = t: int | 0 <= t < MsPerDay

  /** `getNextOccurrence`: the alarm's `HH:MM` today, or tomorrow when that
      moment is not after `now`; as milliseconds after today's midnight.
      `None` where the source builds an invalid date. */
  function NextOccurrence(alarm: Alarm, now: MsOfDay): (next: Option<int>)
    ensures next.Some? <==> ParseHHMM(alarm.time).Some?
    ensures next.Some? ==>
      && now < next.value <= now + MsPerDay
      && next.value % MsPerMinute == 0
      && ParseHHMM(alarm.time) == Some((next.value / MsPerMinute) % MinutesPerDay)
      && FormatHHMM((next.value / MsPerMinute) % MinutesPerDay) == alarm.time
  {
    match ParseHHMM(alarm.time)
    case None => None
    case Some(m) =>
      FormatParseHHMM(alarm.time, m);
      var today := m * MsPerMinute;
      assert today / MsPerMinute == m && today % MsPerMinute == 0;
      if today <= now then
        assert (today + MsPerDay) / MsPerMinute == m + MinutesPerDay;
        assert (m + MinutesPerDay) % MinutesPerDay == m;
        Some(today + MsPerDay)
      else
        assert m % MinutesPerDay == m;
        Some(today)
  }

  /** No moment strictly after `now` that shows the alarm's time comes before
      the one displayed: it is the first occurrence. */
  lemma NextOccurrenceIsFirst(alarm: Alarm, now: MsOfDay, t: int)
    requires ParseHHMM(alarm.time).Some?
    requires now < t && t % MsPerMinute == 0
    requires (t / MsPerMinute) % MinutesPerDay == ParseHHMM(alarm.time).value
    ensures NextOccurrence(alarm, now).value <= t
  {
    var m := ParseHHMM(alarm.time).value;
    var k := t / MsPerMinute;
    assert k == (k / MinutesPerDay) * MinutesPerDay + m;
    assert t == k * MsPerMinute;
    if k / MinutesPerDay <= 0 {
      assert t == m * MsPerMinute;
    } else {
      assert t >= m * MsPerMinute + MsPerDay;
    }
  }

  /** The day shown is today exactly when the alarm's minute is still ahead;
      the repeat days play no part in it. */
  lemma NextOccurrenceDay(alarm: Alarm, now: MsOfDay, m: MinuteOfDay)
    requires ParseHHMM(alarm.time) == Some(m)
    ensures NextOccurrence(alarm, now).value / MsPerDay == 0 <==> m * MsPerMinute > now
    ensures NextOccurrence(alarm, now).value / MsPerDay <= 1
    ensures NextOccurrence(alarm, now) == NextOccurrence(alarm.(repeat := []), now)
  {
  }
}

=== FILE: alarm_modal.dfy ===
/** The alarm editor (components/alarm-modal.tsx): its form state, the
    repeat-day buttons, the label-driven ringtone search and saving. */
module AlarmModal {
  import opened Common
  import opened Seqs
  import opened Text
  import opened TimeOfDay
  import opened Alarms
  import opened YouTube
  import NotificationHandler

  /** `toggleRepeatDay`: a selected day is dropped, any other is appended. */
  function ToggleRepeatDay(repeat: seq<string>, day: string): (r: seq<string>)
    ensures day in repeat ==> (forall d :: d in r <==> d in repeat && d != day)
    ensures day !in repeat ==> r == repeat + [day]
  {
    if day in repeat then Without(repeat, day) else repeat + [day]
  }

  lemma {:induction false} WithoutAppended(s: seq<string>, x: string)
    requires x !in s
    ensures Without(s + [x], x) == s
  {
    if s == [] {
      assert Without([x], x) == [] + Without([], x);
    } else {
      assert (s + [x])[0] == s[0] && (s + [x])[1..] == s[1..] + [x];
      WithoutAppended(s[1..], x);
      assert s == [s[0]] + s[1..];
    }
  }

  lemma {:induction false} WithoutDistinct(s: seq<string>, x: string)
    requires NoDuplicates(s)
    ensures NoDuplicates(Without(s, x))
  {
    if s != [] {
      var rest := Without(s[1..], x);
      WithoutDistinct(s[1..], x);
      assert s[0] !in s[1..];
      assert s[0] !in rest;
      var head := if s[0] == x then [] else [s[0]];
      forall i, j | 0 <= i < j < |head + rest|
        ensures (head + rest)[i] != (head + rest)[j]
      {
        if i < |head| {
          assert (head + rest)[j] in rest;
        }
      }
    }
  }

  /** Unselecting a day of a duplicate-free list removes that one entry and
      keeps the other days in their order. */
  lemma ToggleRemovesInPlace(repeat: seq<string>, k: nat)
    requires NoDuplicates(repeat) && k < |repeat|
    ensures ToggleRepeatDay(repeat, repeat[k]) == repeat[..k] + repeat[k + 1..]
  {
    var day := repeat[k];
    var before, after := repeat[..k], repeat[k + 1..];
    assert repeat == before + ([day] + after);
    DayOnlyAt(repeat, k);
    WithoutAbsent(before, day);
    WithoutAbsent(after, day);
    assert Without([day], day) == [];
    calc {
      Without(repeat, day);
      { WithoutConcat(before, [day] + after, day); }
      Without(before, day) + Without([day] + after, day);
      { WithoutConcat([day], after, day); }
      before + ([] + after);
    }
    assert [] + after == after;
  }

  /** In a duplicate-free list, the `k`-th entry occurs nowhere else. */
  lemma DayOnlyAt(repeat: seq<string>, k: nat)
    requires NoDuplicates(repeat) && k < |repeat|
    ensures repeat[k] !in repeat[..k] && repeat[k] !in repeat[k + 1..]
  {
    var before, after := repeat[..k], repeat[k + 1..];
    forall i | 0 <= i < |before|
      ensures before[i] != repeat[k]
    {
      assert before[i] == repeat[i];
    }
    forall j | 0 <= j < |after|
      ensures after[j] != repeat[k]
    {
      assert after[j] == repeat[k + 1 + j];
    }
  }

  /** Pressing a day's button twice leaves the same days selected. */
  lemma ToggleTwiceSameDays(repeat: seq<string>, day: string)
    ensures forall d :: d in ToggleRepeatDay(ToggleRepeatDay(repeat, day), day) <==> d in repeat
  {
  }

  /** Starting from an unselected day, pressing it twice gives back the very
      same list, order included. */
  lemma ToggleTwiceRestores(repeat: seq<string>, day: string)
    requires day !in repeat
    ensures ToggleRepeatDay(ToggleRepeatDay(repeat, day), day) == repeat
  {
    WithoutAppended(repeat, day);
  }

  /** Toggling never selects a day twice. */
  lemma ToggleKeepsDistinct(repeat: seq<string>, day: string)
    requires NoDuplicates(repeat)
    ensures NoDuplicates(ToggleRepeatDay(repeat, day))
  {
    if day in repeat {
      WithoutDistinct(repeat, day);
    }
  }

  /** The label effect's test: a search is scheduled only for a label that
      is not blank and whose `length`, in UTF-16 code units, exceeds two. */
  predicate SearchGate(text: string) {
    Trim(text) != [] && Utf16Length(text) > 2
  }

  /** A letter and one emoji beyond U+FFFF already pass the length test:
      JavaScript counts the emoji as two code units. */
  lemma SearchGateCountsCodeUnits()
    ensures SearchGate("a\U{1F600}") && |"a\U{1F600}"| == 2
  {
    var text := "a\U{1F600}";
    assert Utf16Length(text) == 3 by {
      assert text[1..][1..] == [];
    }
    assert !IsWhitespace(text[0]);
    assert Trim(text) != [];
  }

  /** What `searchYouTubeVideos` resolved to; the request itself is not
      part of this model. */
  datatype SearchResponse = SearchResponse(videos: seq<Video>, error: Option<string>)

  /** The awaited search either answered or threw. */
  datatype SearchOutcome = Answered(response: SearchResponse) | Threw

  predicate ReportsError(response: SearchResponse) {
    response.error.Some? && response.error.value != ""
  }

  const SearchFailedMessage: string := "Failed to search for songs"

  /** Why saving was refused (the two `alert`s). */
  datatype SaveError = LabelRequired | RingtoneRequired

  const DefaultTime: string := "07:00"
  const DefaultSnoozeMinutes: int := 10
  const FreshIdPrefix: string := "alarm-"

  /** The id given to an alarm created at `stamp` milliseconds. */
  function FreshId(stamp: nat): (id: string)
    ensures StartsWith(id, FreshIdPrefix) && |id| > |FreshIdPrefix|
    ensures AllDigits(id[|FreshIdPrefix|..]) && DigitsValue(id[|FreshIdPrefix|..]) == stamp
  {
    var id := FreshIdPrefix + NatToString(stamp);
    assert id[..|FreshIdPrefix|] == FreshIdPrefix;
    assert id[|FreshIdPrefix|..] == NatToString(stamp);
    DigitsValueOfNatToString(stamp);
    id
  }

  /** Alarms created at different milliseconds get different ids. */
  lemma FreshIdsDiffer(a: nat, b: nat)
    ensures a != b ==> FreshId(a) != FreshId(b)
  {
    if FreshId(a) == FreshId(b) {
      assert NatToString(a) == FreshId(a)[|FreshIdPrefix|..];
      assert NatToString(b) == FreshId(b)[|FreshIdPrefix|..];
      NatToStringInjective(a, b);
    }
  }

  /** The editor's form state: one field per `useState`. */
  class AlarmEditor {
    var labelText: string
    var time: string
    var is24Hour: bool
    var amPm: AmPm
    var repeat: seq<string>
    var snoozeMinutes: int
    var selectedVideo: Option<Video>
    var searchResults: seq<Video>
    var isSearching: bool
    var searchError: Option<string>

    /** The initial state of every field. */
    constructor ()
      ensures labelText == "" && time == DefaultTime && !is24Hour && amPm == AM
      ensures repeat == [] && snoozeMinutes == DefaultSnoozeMinutes
      ensures selectedVideo == None && searchResults == [] && !isSearching && searchError == None
    {
      labelText := "";
      time := DefaultTime;
      is24Hour := false;
      amPm := AM;
      repeat := [];
      snoozeMinutes := DefaultSnoozeMinutes;
      selectedVideo := None;
      searchResults := [];
      isSearching := false;
      searchError := None;
    }

    /** The load effect: copy the edited alarm into the form, its ringtone
        becoming the selected video; with nothing to edit, reset the form.
        Loading an alarm keeps the search results and error; resetting
        leaves the searching flag alone. */
    method Load(editing: Option<Alarm>)
      modifies this`labelText, this`time, this`is24Hour, this`amPm, this`repeat, this`snoozeMinutes
      modifies this`selectedVideo, this`searchResults, this`searchError
      ensures editing.Some? ==>
        && labelText == editing.value.labelText && time == editing.value.time
        && is24Hour == editing.value.is24Hour
        && amPm == (if editing.value.amPm.Some? then editing.value.amPm.value else AM)
        && repeat == editing.value.repeat && snoozeMinutes == editing.value.snoozeMinutes
        && selectedVideo == Some(Video(editing.value.ringtone.videoId, editing.value.ringtone.title,
                                       Thumbnail(editing.value.ringtone.videoId)))
        && searchResults == old(searchResults) && searchError == old(searchError)
      ensures editing.None? ==>
        && labelText == "" && time == DefaultTime && !is24Hour && amPm == AM
        && repeat == [] && snoozeMinutes == DefaultSnoozeMinutes
        && selectedVideo == None && searchResults == [] && searchError == None
    {
      match editing
      case Some(alarm) =>
        labelText := alarm.labelText;
        time := alarm.time;
        is24Hour := alarm.is24Hour;
        amPm := if alarm.amPm.Some? then alarm.amPm.value else AM;
        repeat := alarm.repeat;
        snoozeMinutes := alarm.snoozeMinutes;
        selectedVideo := Some(Video(alarm.ringtone.videoId, alarm.ringtone.title, Thumbnail(alarm.ringtone.videoId)));
      case None =>
        labelText := "";
        time := DefaultTime;
        is24Hour := false;
        amPm := AM;
        repeat := [];
        snoozeMinutes := DefaultSnoozeMinutes;
        selectedVideo := None;
        searchResults := [];
        searchError := None;
    }

    /** A repeat-day button press. */
    method ToggleDay(day: string)
      modifies this`repeat
      ensures repeat == ToggleRepeatDay(old(repeat), day)
      ensures NoDuplicates(old(repeat)) ==> NoDuplicates(repeat)
    {
      if NoDuplicates(repeat) {
        ToggleKeepsDistinct(repeat, day);
      }
      repeat := ToggleRepeatDay(repeat, day);
    }

    /** A label edit followed by the label effect: the query to search for
        once the debounce elapses, or `None` after clearing the results and
        the selected ringtone. */
    method SetLabel(text: string) returns (query: Option<string>)
      modifies this`labelText, this`searchResults, this`selectedVideo
      ensures labelText == text
      ensures query.Some? <==> SearchGate(text)
      ensures query.Some? ==>
        query.value == text && searchResults == old(searchResults) && selectedVideo == old(selectedVideo)
      ensures query.None? ==> searchResults == [] && selectedVideo == None
    {
      labelText := text;
      if Trim(labelText) != [] && Utf16Length(labelText) > 2 {
        query := Some(labelText);
      } else {
        searchResults := [];
        selectedVideo := None;
        query := None;
      }
    }

    /** `performYouTubeSearch`, up to the `await`. */
    method StartSearch()
      modifies this`isSearching, this`searchError
      ensures isSearching && searchError == None
    {
      isSearching := true;
      searchError := None;
    }

    /** `performYouTubeSearch`, from the `await` on. `hadSelection` is
        whether a ringtone was selected in the render that scheduled the
        search: the callback reads that render's `selectedVideo`. */
    method FinishSearch(outcome: SearchOutcome, hadSelection: bool)
      modifies this`searchResults, this`selectedVideo, this`searchError, this`isSearching
      ensures !isSearching
      ensures outcome.Threw? ==>
        searchError == Some(SearchFailedMessage) && searchResults == [] && selectedVideo == old(selectedVideo)
      ensures outcome.Answered? && ReportsError(outcome.response) ==>
        searchError == outcome.response.error && searchResults == [] && selectedVideo == old(selectedVideo)
      ensures outcome.Answered? && !ReportsError(outcome.response) ==>
        && searchResults == outcome.response.videos && searchError == old(searchError)
        && selectedVideo == (if !hadSelection && |outcome.response.videos| > 0
                             then Some(outcome.response.videos[0]) else old(selectedVideo))
    {
      match outcome {
        case Threw =>
          searchError := Some(SearchFailedMessage);
          searchResults := [];
        case Answered(response) =>
          if response.error.Some? && response.error.value != "" {
            searchError := response.error;
            searchResults := [];
          } else {
            searchResults := response.videos;
            if !hadSelection && |response.videos| > 0 {
              selectedVideo := Some(response.videos[0]);
            }
          }
      }
      isSearching := false;
    }

    /** `handleSave`: the label is checked first, then the ringtone; a
        saved alarm is enabled, carries the trimmed label, keeps the id of
        the alarm being edited (a fresh one when there is none or it is
        empty), drops AM/PM in 24-hour mode and rings the selected video. */
    function Save(editing: Option<Alarm>, stamp: nat): (r: Result<Alarm, SaveError>)
      reads this
      ensures Trim(labelText) == [] ==> r == Failure(LabelRequired)
      ensures Trim(labelText) != [] && selectedVideo.None? ==> r == Failure(RingtoneRequired)
      ensures r.Success? <==> Trim(labelText) != [] && selectedVideo.Some?
      ensures r.Success? ==>
        && r.value.enabled
        && r.value.labelText == Trim(labelText) && r.value.labelText != []
        && r.value.time == time && r.value.repeat == repeat && r.value.snoozeMinutes == snoozeMinutes
        && r.value.is24Hour == is24Hour
        && r.value.amPm == (if is24Hour then None else Some(amPm))
        && r.value.ringtone == Ringtone(selectedVideo.value.id, selectedVideo.value.title)
        && r.value.id == (if editing.Some? && editing.value.id != "" then editing.value.id else FreshId(stamp))
    {
      if Trim(labelText) == [] then Failure(LabelRequired)
      else if selectedVideo.None? then Failure(RingtoneRequired)
      else
        var id := if editing.Some? && editing.value.id != "" then editing.value.id else FreshId(stamp);
        Success(Alarm(id, Trim(labelText), time, is24Hour, if is24Hour then None else Some(amPm), repeat,
                      Ringtone(selectedVideo.value.id, selectedVideo.value.title), true, snoozeMinutes))
    }

    /** Saving again the alarm just saved changes nothing about its label:
        the stored label is already trimmed. */
    lemma SavedLabelIsTrimmed(editing: Option<Alarm>, stamp: nat)
      requires Save(editing, stamp).Success?
      ensures Trim(Save(editing, stamp).value.labelText) == Save(editing, stamp).value.labelText
    {
      TrimIdempotent(labelText);
    }

    /** A saved alarm whose time is a valid `HH:MM` rings at that minute on
        every day it repeats on (any day when it repeats on none). */
    lemma SavedAlarmIsDue(editing: Option<Alarm>, stamp: nat, clock: NotificationHandler.Clock)
      requires Save(editing, stamp).Success?
      requires ParseHHMM(time) == Some(clock.minute)
      requires repeat == [] || clock.weekday in repeat
      ensures NotificationHandler.Due(Save(editing, stamp).value, clock)
    {
      FormatParseHHMM(time, clock.minute);
    }
  }
}

=== FILE: alarm_popup.dfy ===
/** The ringing popup's pure parts (components/alarm-popup.tsx): the
    "Ringing for m:ss" text and the keyboard shortcuts. */
module AlarmPopup {
  import opened Text

  /** `formatElapsedTime(seconds)`: `${mins}:${secs.toString().padStart(2, "0")}`.
      The text reads back as the elapsed seconds: whole minutes before the
      colon, exactly two digits of seconds below 60 after it. */
  function FormatElapsedTime(seconds: nat): (text: string)
    ensures |text| >= 4 && text[|text| - 3] == ':'
    ensures AllDigits(text[..|text| - 3]) && AllDigits(text[|text| - 2..])
    ensures DigitsValue(text[|text| - 2..]) < 60
    ensures DigitsValue(text[..|text| - 3]) * 60 + DigitsValue(text[|text| - 2..]) == seconds
  {
    var mins := seconds / 60;
    var secs := seconds % 60;
    DigitsValueOfNatToString(mins);
    var text := NatToString(mins) + ":" + PadStart2(secs);
    assert text[..|text| - 3] == NatToString(mins);
    assert text[|text| - 2..] == PadStart2(secs);
    text
  }

  /** What a key press asks of the ringing alarm. */
  datatype KeyAction = StopAlarm | SnoozeAlarm | NoAction

  /** The `keydown` handler of `useAlarmKeyboardShortcuts`: Escape stops, the
      space key (by `key` or by `code`) snoozes, anything else does nothing;
      Escape is tested first. */
  function ActionForKey(key: string, code: string): (action: KeyAction)
    ensures action == StopAlarm <==> key == "Escape"
    ensures action == SnoozeAlarm <==> key != "Escape" && (key == " " || code == "Space")
  {
    if key == "Escape" then StopAlarm
    else if key == " " || code == "Space" then SnoozeAlarm
    else NoAction
  }
}

=== FILE: alarm_store.dfy ===
/** The page (page.tsx): the alarm list with its updaters, the alarm being
    edited, and the one-slot ringing session with stop and snooze. */
module AlarmStore {
  import opened Common
  import opened Text
  import opened TimeOfDay
  import opened Alarms
  import opened AlarmPopup
  import opened AlarmModal
  import opened NotificationHandler

  // ---------------------------------------------------------------------
  // The list updaters

  /** `prev.map((alarm) => alarm.id === updated.id ? updated : alarm)` */
  function Replaced(alarms: seq<Alarm>, updated: Alarm): (r: seq<Alarm>)
    ensures |r| == |alarms|
    ensures forall i :: 0 <= i < |alarms| ==> r[i] == if alarms[i].id == updated.id then updated else alarms[i]
  {
    if alarms == [] then []
    else [if alarms[0].id == updated.id then updated else alarms[0]] + Replaced(alarms[1..], updated)
  }

  /** `prev.filter((alarm) => alarm.id !== id)` */
  function Removed(alarms: seq<Alarm>, id: string): (r: seq<Alarm>)
    ensures forall a :: a in r <==> a in alarms && a.id != id
    ensures |r| <= |alarms|
  {
    if alarms == [] then []
    else (if alarms[0].id == id then [] else [alarms[0]]) + Removed(alarms[1..], id)
  }

  /** `prev.map((alarm) => alarm.id === id ? { ...alarm, enabled: !alarm.enabled } : alarm)` */
  function Toggled(alarms: seq<Alarm>, id: string): (r: seq<Alarm>)
    ensures |r| == |alarms|
    ensures forall i :: 0 <= i < |alarms| ==>
      r[i] == if alarms[i].id == id then alarms[i].(enabled := !alarms[i].enabled) else alarms[i]
  {
    if alarms == [] then []
    else [if alarms[0].id == id then alarms[0].(enabled := !alarms[0].enabled) else alarms[0]]
         + Toggled(alarms[1..], id)
  }

  predicate HasId(alarms: seq<Alarm>, id: string) {
    exists i :: 0 <= i < |alarms| && alarms[i].id == id
  }

  /** Deleting keeps the survivors in their order: filtering a concatenation
      filters each part. */
  lemma {:induction false} RemovedConcat(xs: seq<Alarm>, ys: seq<Alarm>, id: string)
    ensures Removed(xs + ys, id) == Removed(xs, id) + Removed(ys, id)
  {
    if xs == [] {
      assert xs + ys == ys;
    } else {
      assert (xs + ys)[0] == xs[0] && (xs + ys)[1..] == xs[1..] + ys;
      RemovedConcat(xs[1..], ys, id);
    }
  }

  /** Deleting an id nobody has changes nothing. */
  lemma {:induction false} RemovedNoMatch(alarms: seq<Alarm>, id: string)
    requires !HasId(alarms, id)
    ensures Removed(alarms, id) == alarms
  {
    if alarms != [] {
      assert !HasId(alarms[1..], id) by {
        forall i | 0 <= i < |alarms[1..]|
          ensures alarms[1..][i].id != id
        {
          assert alarms[1..][i] == alarms[i + 1];
        }
      }
      RemovedNoMatch(alarms[1..], id);
    }
  }

  /** Adding an alarm with a new id and then deleting that id gives back
      the list as it was. */
  lemma AddThenDelete(alarms: seq<Alarm>, alarm: Alarm)
    requires !HasId(alarms, alarm.id)
    ensures Removed(alarms + [alarm], alarm.id) == alarms
  {
    RemovedConcat(alarms, [alarm], alarm.id);
    RemovedNoMatch(alarms, alarm.id);
    assert Removed([alarm], alarm.id) == [] + Removed([], alarm.id);
  }

  /** Updating an alarm that is no longer in the list changes nothing. */
  lemma ReplacedNoMatch(alarms: seq<Alarm>, updated: Alarm)
    requires !HasId(alarms, updated.id)
    ensures Replaced(alarms, updated) == alarms
  {
  }

  /** Flipping the same switch twice is no change at all. */
  lemma ToggleTwice(alarms: seq<Alarm>, id: string)
    ensures Toggled(Toggled(alarms, id), id) == alarms
  {
  }

  /** Toggling touches nothing but the `enabled` flag, and nothing of the
      alarms with other ids. */
  lemma ToggleOnlyEnabled(alarms: seq<Alarm>, id: string)
    ensures forall i :: 0 <= i < |alarms| ==>
      Toggled(alarms, id)[i].(enabled := alarms[i].enabled) == alarms[i]
    ensures forall i :: 0 <= i < |alarms| ==>
      (Toggled(alarms, id)[i].enabled == alarms[i].enabled <==> alarms[i].id != id)
  {
  }

  // ---------------------------------------------------------------------
  // Snooze

  const SnoozeIdInfix: string := "-snooze-"
  const SnoozedSuffix: string := " (Snoozed)"

  /** The minute of the day `snoozeMinutes` after `now`, across midnight. */
  function SnoozeMinute(now: MinuteOfDay, snoozeMinutes: int): MinuteOfDay {
    (now + snoozeMinutes) % MinutesPerDay
  }

  /** The one-shot copy of the ringing alarm that `handleSnoozeAlarm` adds:
      a new id, the snooze time as `HH:MM`, no repeat days, the label marked
      " (Snoozed)", every other field as in the ringing alarm. */
  function SnoozedAlarm(active: Alarm, now: MinuteOfDay, stamp: nat): (s: Alarm)
    ensures StartsWith(s.id, active.id + SnoozeIdInfix) && |s.id| > |active.id + SnoozeIdInfix|
    ensures ParseHHMM(s.time) == Some(SnoozeMinute(now, active.snoozeMinutes))
    ensures s.repeat == []
    ensures StartsWith(s.labelText, active.labelText) && s.labelText[|active.labelText|..] == SnoozedSuffix
    ensures s.(id := active.id, time := active.time, repeat := active.repeat, labelText := active.labelText) == active
  {
    var id := active.id + SnoozeIdInfix + NatToString(stamp);
    var text := active.labelText + SnoozedSuffix;
    ParseFormatHHMM(SnoozeMinute(now, active.snoozeMinutes));
    assert id[..|active.id + SnoozeIdInfix|] == active.id + SnoozeIdInfix;
    assert text[..|active.labelText|] == active.labelText;
    active.(id := id, time := FormatHHMM(SnoozeMinute(now, active.snoozeMinutes)), repeat := [], labelText := text)
  }

  /** The snoozed copy rings on any day at exactly the snooze minute, as long
      as the ringing alarm was enabled. */
  lemma SnoozedDueExactly(active: Alarm, now: MinuteOfDay, stamp: nat, clock: Clock)
    ensures Due(SnoozedAlarm(active, now, stamp), clock) <==>
      active.enabled && clock.minute == SnoozeMinute(now, active.snoozeMinutes)
  {
    var s := SnoozedAlarm(active, now, stamp);
    if s.time == FormatHHMM(clock.minute) {
      ParseFormatHHMM(clock.minute);
    }
    if clock.minute == SnoozeMinute(now, active.snoozeMinutes) {
      FormatParseHHMM(s.time, clock.minute);
    }
  }

  /** The snoozed copy never shares the id of the alarm it copies, so the
      two are updated, toggled and deleted separately. */
  lemma SnoozedIdIsNew(active: Alarm, now: MinuteOfDay, stamp: nat)
    ensures SnoozedAlarm(active, now, stamp).id != active.id
  {
  }

  // ---------------------------------------------------------------------
  // The page's state

  class AlarmClockApp {
    var alarms: seq<Alarm>
    var isModalOpen: bool
    var editingAlarm: Option<Alarm>
    var activeAlarm: Option<Alarm>

    /** The page as first rendered (before the stored list is loaded). */
    constructor ()
      ensures alarms == [] && !isModalOpen && editingAlarm == None && activeAlarm == None
    {
      alarms := [];
      isModalOpen := false;
      editingAlarm := None;
      activeAlarm := None;
    }

    method AddAlarm(alarm: Alarm)
      modifies this`alarms
      ensures alarms == old(alarms) + [alarm]
    {
      alarms := alarms + [alarm];
    }

    method UpdateAlarm(updated: Alarm)
      modifies this`alarms
      ensures alarms == Replaced(old(alarms), updated)
    {
      alarms := Replaced(alarms, updated);
    }

    method DeleteAlarm(id: string)
      modifies this`alarms
      ensures alarms == Removed(old(alarms), id)
    {
      alarms := Removed(alarms, id);
    }

    method ToggleAlarm(id: string)
      modifies this`alarms
      ensures alarms == Toggled(old(alarms), id)
    {
      alarms := Toggled(alarms, id);
    }

    /** The "Add Alarm" button. */
    method OpenNewAlarm()
      modifies this`isModalOpen
      ensures isModalOpen
    {
      isModalOpen := true;
    }

    method HandleEditAlarm(alarm: Alarm)
      modifies this`editingAlarm, this`isModalOpen
      ensures editingAlarm == Some(alarm) && isModalOpen
    {
      editingAlarm := Some(alarm);
      isModalOpen := true;
    }

    method HandleCloseModal()
      modifies this`editingAlarm, this`isModalOpen
      ensures editingAlarm == None && !isModalOpen
    {
      isModalOpen := false;
      editingAlarm := None;
    }

    /** The editor's `onSave`: an update while an alarm is being edited, an
        addition otherwise. */
    method SaveAlarm(alarm: Alarm)
      modifies this`alarms
      ensures editingAlarm.Some? ==> alarms == Replaced(old(alarms), alarm)
      ensures editingAlarm.None? ==> alarms == old(alarms) + [alarm]
    {
      if editingAlarm.Some? {
        UpdateAlarm(alarm);
      } else {
        AddAlarm(alarm);
      }
    }

    /** The editor's Save button: validate and build the alarm, hand it to
        `onSave`, then close the editor; a refused save changes nothing. */
    method SubmitEditor(editor: AlarmEditor, stamp: nat) returns (refused: Option<SaveError>)
      modifies this`alarms, this`editingAlarm, this`isModalOpen
      ensures var saved := editor.Save(old(editingAlarm), stamp);
        && (saved.Failure? ==> refused == Some(saved.error) && alarms == old(alarms)
                               && editingAlarm == old(editingAlarm) && isModalOpen == old(isModalOpen))
        && (saved.Success? && old(editingAlarm).Some? ==>
              refused == None && alarms == Replaced(old(alarms), saved.value))
        && (saved.Success? && old(editingAlarm).None? ==>
              refused == None && alarms == old(alarms) + [saved.value])
        && (saved.Success? ==> editingAlarm == None && !isModalOpen)
    {
      var saved := editor.Save(editingAlarm, stamp);
      if saved.Failure? {
        refused := Some(saved.error);
      } else {
        SaveAlarm(saved.value);
        HandleCloseModal();
        refused := None;
      }
    }

    /** `handleAlarmTrigger`: the fired alarm takes the slot, replacing any
        alarm already ringing. */
    method HandleAlarmTrigger(alarm: Alarm)
      modifies this`activeAlarm
      ensures activeAlarm == Some(alarm)
    {
      activeAlarm := Some(alarm);
    }

    method HandleStopAlarm()
      modifies this`activeAlarm
      ensures activeAlarm == None
    {
      activeAlarm := None;
    }

    /** `handleSnoozeAlarm` at minute `now`, `stamp` standing for `Date.now()`:
        with an alarm ringing, append its snoozed copy and clear the slot;
        with none, do nothing. */
    method HandleSnoozeAlarm(now: MinuteOfDay, stamp: nat)
      modifies this`alarms, this`activeAlarm
      ensures old(activeAlarm).None? ==> alarms == old(alarms) && activeAlarm == None
      ensures old(activeAlarm).Some? ==>
        && alarms == old(alarms) + [SnoozedAlarm(old(activeAlarm).value, now, stamp)]
        && activeAlarm == None
    {
      if activeAlarm.Some? {
        var snooze := SnoozedAlarm(activeAlarm.value, now, stamp);
        AddAlarm(snooze);
        activeAlarm := None;
      }
    }

    /** The keyboard shortcuts, wired to stop and snooze. */
    method HandleKeyDown(key: string, code: string, now: MinuteOfDay, stamp: nat)
      modifies this`alarms, this`activeAlarm
      ensures ActionForKey(key, code) == StopAlarm ==> alarms == old(alarms) && activeAlarm == None
      ensures ActionForKey(key, code) == SnoozeAlarm && old(activeAlarm).Some? ==>
        alarms == old(alarms) + [SnoozedAlarm(old(activeAlarm).value, now, stamp)] && activeAlarm == None
      ensures ActionForKey(key, code) == SnoozeAlarm && old(activeAlarm).None? ==>
        alarms == old(alarms) && activeAlarm == None
      ensures ActionForKey(key, code) == NoAction ==> alarms == old(alarms) && activeAlarm == old(activeAlarm)
    {
      match ActionForKey(key, code) {
        case StopAlarm => HandleStopAlarm();
        case SnoozeAlarm => HandleSnoozeAlarm(now, stamp);
        case NoAction =>
      }
    }

    /** One tick of the notification handler over the page's list: every
        fired alarm is handed to `handleAlarmTrigger` in order, so the last
        one fired is the one left ringing. */
    method Tick(engine: TriggerEngine, clock: Clock) returns (fired: seq<Alarm>)
      requires engine.Valid()
      modifies engine, this`activeAlarm
      ensures engine.Valid()
      ensures TickResult(engine.triggered, fired) == Run(old(engine.triggered), alarms, clock)
      ensures activeAlarm == if fired == [] then old(activeAlarm) else Some(fired[|fired| - 1])
      ensures forall i :: 0 <= i < |fired| ==> fired[i] in alarms && Due(fired[i], clock)
    {
      fired := engine.CheckAlarms(alarms, clock);
      RunFiresOnlyDue(old(engine.triggered), alarms, clock);
      ghost var keys := engine.triggered;
      for i := 0 to |fired|
        invariant engine.triggered == keys
        invariant activeAlarm == if i == 0 then old(activeAlarm) else Some(fired[i - 1])
      {
        HandleAlarmTrigger(fired[i]);
      }
    }
  }
}

=== FILE: common.dfy ===
/** Option and Result, used for JavaScript's `undefined`/`null` values and for
    operations that stop early with an error. */
module Common {

  datatype Option<+T> = None | Some(value: T)

  datatype Result<+R, +E> = Success(value: R) | Failure(error: E)
}

=== FILE: notification_handler.dfy ===
/** The trigger engine (components/notification-handler.tsx, `checkAlarms`).

    Once per tick the handler walks the alarm list in order and fires every
    enabled alarm whose `time` equals the current `HH:MM`, whose repeat days
    are empty or include today, and whose dedup key
    `id-HH:MM-dayOfMonth` is not yet recorded. Firing records the key; when
    more than 100 keys are held, the 50 oldest are deleted.

    The specification of one tick is `Run`, a fold of `Record` over the list;
    the class `TriggerEngine` holds the key set and its `CheckAlarms` is
    proved to compute `Run`. */
module NotificationHandler {
  import opened Common
  import opened Seqs
  import opened Text
  import opened TimeOfDay
  import opened Alarms

  /** The tick's reading of the clock: minute after local midnight, the short
      weekday name ("Mon" .. "Sun") and the day of the month. */
  datatype Clock = Clock(minute: MinuteOfDay, weekday: string, dayOfMonth: nat)

  /** Keys kept before eviction starts, and keys evicted at once. */
  const RetentionCap: nat := 100
  const EvictCount: nat := 50

  /** The alarm is due now, ignoring deduplication: enabled, its time text
      equal to the current `HH:MM`, and no repeat days or today among them. */
  predicate Due(alarm: Alarm, clock: Clock) {
    && alarm.enabled
    && alarm.time == FormatHHMM(clock.minute)
    && (|alarm.repeat| == 0 || clock.weekday in alarm.repeat)
  }

  /** `currentMinute`: the current `HH:MM`, a dash, the day of the month. */
  function CurrentMinute(clock: Clock): string {
    FormatHHMM(clock.minute) + "-" + NatToString(clock.dayOfMonth)
  }

  /** The dedup key `${alarm.id}-${currentMinute}`. */
  function Key(alarm: Alarm, clock: Clock): string {
    alarm.id + "-" + CurrentMinute(clock)
  }

  function KeysOf(alarms: seq<Alarm>, clock: Clock): (keys: seq<string>)
    ensures |keys| == |alarms|
    ensures forall i :: 0 <= i < |alarms| ==> keys[i] == Key(alarms[i], clock)
  {
    if alarms == [] then [] else KeysOf(alarms[..|alarms| - 1], clock) + [Key(alarms[|alarms| - 1], clock)]
  }

  /** The alarm fires on this visit: due, and its key not yet recorded. */
  predicate Fires(keys: seq<string>, alarm: Alarm, clock: Clock) {
    Due(alarm, clock) && Key(alarm, clock) !in keys
  }

  /** Once more than `RetentionCap` keys are held, the `EvictCount` oldest go. */
  function Evict(keys: seq<string>): seq<string> {
    if |keys| > RetentionCap then keys[EvictCount..] else keys
  }

  /** The key set after visiting `alarm`. */
  function Record(keys: seq<string>, alarm: Alarm, clock: Clock): seq<string> {
    if Fires(keys, alarm, clock) then Evict(keys + [Key(alarm, clock)]) else keys
  }

  datatype TickResult = TickResult(keys: seq<string>, fired: seq<Alarm>)

  /** One tick over `alarms`, in list order: the final key set and the alarms
      fired, in the order they fired. */
  function Run(keys: seq<string>, alarms: seq<Alarm>, clock: Clock): TickResult
    decreases |alarms|
  {
    if alarms == [] then TickResult(keys, [])
    else
      var prev := Run(keys, alarms[..|alarms| - 1], clock);
      var alarm := alarms[|alarms| - 1];
      TickResult(
        Record(prev.keys, alarm, clock),
        prev.fired + (if Fires(prev.keys, alarm, clock) then [alarm] else []))
  }

  /** `Run` over the first `i + 1` alarms is one visit after `Run` over the first `i`. */
  lemma RunStep(keys: seq<string>, alarms: seq<Alarm>, i: nat, clock: Clock)
    requires i < |alarms|
    ensures var prev := Run(keys, alarms[..i], clock);
      Run(keys, alarms[..i + 1], clock) == TickResult(
        Record(prev.keys, alarms[i], clock),
        prev.fired + (if Fires(prev.keys, alarms[i], clock) then [alarms[i]] else []))
  {
    assert alarms[..i + 1][..i] == alarms[..i];
  }

  /** The alarms of the list that are due, in list order. */
  function DueAlarms(alarms: seq<Alarm>, clock: Clock): seq<Alarm>
    decreases |alarms|
  {
    if alarms == [] then []
    else
      var alarm := alarms[|alarms| - 1];
      DueAlarms(alarms[..|alarms| - 1], clock) + (if Due(alarm, clock) then [alarm] else [])
  }

  // ---------------------------------------------------------------------
  // One visit

  /** A key is added exactly when the alarm fires; a visit that does not
      fire (disabled, wrong time, not a repeat day, already recorded)
      leaves the set as it was. */
  lemma RecordAddsKeyIffFires(keys: seq<string>, alarm: Alarm, clock: Clock)
    ensures Fires(keys, alarm, clock) <==> Key(alarm, clock) !in keys && Key(alarm, clock) in Record(keys, alarm, clock)
    ensures !Fires(keys, alarm, clock) ==> Record(keys, alarm, clock) == keys
  {
    if Fires(keys, alarm, clock) {
      var grown := keys + [Key(alarm, clock)];
      assert Evict(grown)[|Evict(grown)| - 1] == Key(alarm, clock);
    }
  }

  /** A duplicate-free set of at most 100 keys stays so; at exactly 100 keys
      a fire evicts exactly the 50 oldest, in insertion order. */
  lemma RecordBounded(keys: seq<string>, alarm: Alarm, clock: Clock)
    requires |keys| <= RetentionCap && NoDuplicates(keys)
    ensures |Record(keys, alarm, clock)| <= RetentionCap
    ensures NoDuplicates(Record(keys, alarm, clock))
    ensures |keys| == RetentionCap && Fires(keys, alarm, clock) ==>
      Record(keys, alarm, clock) == keys[EvictCount..] + [Key(alarm, clock)]
  {
    if Fires(keys, alarm, clock) {
      var grown := keys + [Key(alarm, clock)];
      assert NoDuplicates(grown);
      NoDuplicatesSuffix(grown, if |grown| > RetentionCap then EvictCount else 0);
      if |keys| == RetentionCap {
        assert grown[EvictCount..] == keys[EvictCount..] + [Key(alarm, clock)];
      }
    }
  }

  // ---------------------------------------------------------------------
  // A whole tick

  /** The key-set bound (at most 100) and the absence of duplicates hold
      after every tick that starts with them. */
  lemma {:induction false} RunBounded(keys: seq<string>, alarms: seq<Alarm>, clock: Clock)
    requires |keys| <= RetentionCap && NoDuplicates(keys)
    ensures |Run(keys, alarms, clock).keys| <= RetentionCap
    ensures NoDuplicates(Run(keys, alarms, clock).keys)
    decreases |alarms|
  {
    if alarms != [] {
      var prev := Run(keys, alarms[..|alarms| - 1], clock);
      RunBounded(keys, alarms[..|alarms| - 1], clock);
      RecordBounded(prev.keys, alarms[|alarms| - 1], clock);
    }
  }

  /** Only due alarms of the list fire: never a disabled one, never at a
      minute other than the alarm's time, never on a day outside a non-empty
      repeat list; and no more alarms fire than the list holds. */
  lemma {:induction false} RunFiresOnlyDue(keys: seq<string>, alarms: seq<Alarm>, clock: Clock)
    ensures var fired := Run(keys, alarms, clock).fired;
      && |fired| <= |alarms|
      && forall i :: 0 <= i < |fired| ==> fired[i] in alarms && Due(fired[i], clock)
    decreases |alarms|
  {
    if alarms != [] {
      var init := alarms[..|alarms| - 1];
      RunFiresOnlyDue(keys, init, clock);
      var fired := Run(keys, alarms, clock).fired;
      forall i | 0 <= i < |fired|
        ensures fired[i] in alarms
      {
        if i < |Run(keys, init, clock).fired| {
          assert fired[i] in init;
        }
      }
    }
  }

  lemma DisabledNeverFires(keys: seq<string>, alarms: seq<Alarm>, clock: Clock, alarm: Alarm)
    requires !alarm.enabled
    ensures alarm !in Run(keys, alarms, clock).fired
  {
    RunFiresOnlyDue(keys, alarms, clock);
  }

  lemma FiresOnlyOnRepeatDays(keys: seq<string>, alarms: seq<Alarm>, clock: Clock, alarm: Alarm)
    requires |alarm.repeat| > 0 && clock.weekday !in alarm.repeat
    ensures alarm !in Run(keys, alarms, clock).fired
  {
    RunFiresOnlyDue(keys, alarms, clock);
  }

  lemma FiresOnlyAtItsTime(keys: seq<string>, alarms: seq<Alarm>, clock: Clock, alarm: Alarm)
    requires alarm.time != FormatHHMM(clock.minute)
    ensures alarm !in Run(keys, alarms, clock).fired
  {
    RunFiresOnlyDue(keys, alarms, clock);
  }

  /** The key set after a tick holds only keys it held before and keys of
      alarms fired in the tick. */
  lemma {:induction false} RunKeysOrigin(keys: seq<string>, alarms: seq<Alarm>, clock: Clock)
    ensures var r := Run(keys, alarms, clock);
      forall k :: k in r.keys ==> k in keys || k in KeysOf(r.fired, clock)
    decreases |alarms|
  {
    if alarms != [] {
      var init := alarms[..|alarms| - 1];
      RunKeysOrigin(keys, init, clock);
      var prev := Run(keys, init, clock);
      var r := Run(keys, alarms, clock);
      var alarm := alarms[|alarms| - 1];
      var newKeys := KeysOf(r.fired, clock);
      assert newKeys[..|prev.fired|] == KeysOf(prev.fired, clock);
      forall k | k in r.keys
        ensures k in keys || k in newKeys
      {
        if k in prev.keys {
          if k in KeysOf(prev.fired, clock) {
            assert k in newKeys[..|prev.fired|];
          }
        } else {
          assert Fires(prev.keys, alarm, clock);
          assert k in prev.keys + [Key(alarm, clock)];
          assert newKeys[|newKeys| - 1] == k;
        }
      }
    }
  }

  /** Keys of alarms with different ids, read at one clock, differ. */
  lemma KeySameClock(a: Alarm, b: Alarm, clock: Clock)
    ensures a.id != b.id ==> Key(a, clock) != Key(b, clock)
  {
    var ka, kb := Key(a, clock), Key(b, clock);
    if ka == kb {
      assert |a.id| == |b.id|;
      assert a.id == ka[..|a.id|] && b.id == kb[..|b.id|];
    }
  }

  /** Every due alarm of the list fires within the tick, in list order,
      when the due alarms have distinct ids and none of their keys was
      recorded before. */
  lemma {:induction false} RunFiresAllDue(keys: seq<string>, alarms: seq<Alarm>, clock: Clock)
    requires forall i, j :: 0 <= i < j < |alarms| && Due(alarms[i], clock) && Due(alarms[j], clock) ==>
      alarms[i].id != alarms[j].id
    requires forall i :: 0 <= i < |alarms| && Due(alarms[i], clock) ==> Key(alarms[i], clock) !in keys
    ensures Run(keys, alarms, clock).fired == DueAlarms(alarms, clock)
    decreases |alarms|
  {
    if alarms != [] {
      var init := alarms[..|alarms| - 1];
      var alarm := alarms[|alarms| - 1];
      RunFiresAllDue(keys, init, clock);
      var prev := Run(keys, init, clock);
      if Due(alarm, clock) {
        RunKeysOrigin(keys, init, clock);
        RunFiresOnlyDue(keys, init, clock);
        forall j | 0 <= j < |prev.fired|
          ensures KeysOf(prev.fired, clock)[j] != Key(alarm, clock)
        {
          var i :| 0 <= i < |init| && init[i] == prev.fired[j];
          assert alarms[i] == init[i];
          KeySameClock(prev.fired[j], alarm, clock);
        }
      }
    }
  }

  /** While at most 51 alarms fire, no key recorded in this tick is evicted
      in it: the final set is a suffix of the old one followed by the keys of
      the fired alarms. */
  lemma {:induction false} RunKeepsNewKeys(keys: seq<string>, alarms: seq<Alarm>, clock: Clock) returns (j: nat)
    requires |Run(keys, alarms, clock).fired| <= EvictCount + 1
    ensures j <= |keys|
    ensures Run(keys, alarms, clock).keys == keys[j..] + KeysOf(Run(keys, alarms, clock).fired, clock)
    decreases |alarms|
  {
    if alarms == [] {
      j := 0;
    } else {
      var init := alarms[..|alarms| - 1];
      var alarm := alarms[|alarms| - 1];
      var prev := Run(keys, init, clock);
      j := RunKeepsNewKeys(keys, init, clock);
      if Fires(prev.keys, alarm, clock) {
        j := KeepNewKeysStep(keys, j, prev.fired, alarm, clock);
      }
    }
  }

  /** One fire within a tick that fires at most 51 alarms evicts, if
      anything, only keys held before the tick. */
  lemma KeepNewKeysStep(keys: seq<string>, j: nat, fired: seq<Alarm>, alarm: Alarm, clock: Clock) returns (j': nat)
    requires j <= |keys| && |fired| < EvictCount + 1
    ensures j <= j' <= |keys|
    ensures Evict(keys[j..] + KeysOf(fired, clock) + [Key(alarm, clock)]) == keys[j'..] + KeysOf(fired + [alarm], clock)
  {
    var now := fired + [alarm];
    assert now[..|now| - 1] == fired;
    assert KeysOf(now, clock) == KeysOf(fired, clock) + [Key(alarm, clock)];
    var grown := keys[j..] + KeysOf(now, clock);
    assert keys[j..] + KeysOf(fired, clock) + [Key(alarm, clock)] == grown;
    if |grown| > RetentionCap {
      assert grown[EvictCount..] == keys[j + EvictCount..] + KeysOf(now, clock);
      j' := j + EvictCount;
    } else {
      j' := j;
    }
  }

  /** After a fresh tick that fires at most 51 alarms, the key of every due
      alarm of the list is among the keys it recorded. */
  lemma {:induction false} RunRecordsAllDue(keys: seq<string>, alarms: seq<Alarm>, clock: Clock)
    requires forall i :: 0 <= i < |alarms| && Due(alarms[i], clock) ==> Key(alarms[i], clock) !in keys
    requires |Run(keys, alarms, clock).fired| <= EvictCount + 1
    ensures forall i :: 0 <= i < |alarms| && Due(alarms[i], clock) ==>
      Key(alarms[i], clock) in KeysOf(Run(keys, alarms, clock).fired, clock)
    decreases |alarms|
  {
    if alarms != [] {
      var init := alarms[..|alarms| - 1];
      var prev := Run(keys, init, clock);
      var fired := Run(keys, alarms, clock).fired;
      assert fired == prev.fired + fired[|prev.fired|..];
      RunRecordsAllDue(keys, init, clock);
      KeysOfGrow(prev.fired, fired[|prev.fired|..], clock);
      LastDueRecorded(keys, alarms, clock);
      RecordedUpToLast(keys, alarms, init, clock, KeysOf(prev.fired, clock), KeysOf(fired, clock));
    }
  }

  /** The step of the induction, on the key lists alone. */
  lemma RecordedUpToLast(keys: seq<string>, alarms: seq<Alarm>, init: seq<Alarm>, clock: Clock,
                         before: seq<string>, after: seq<string>)
    requires alarms != [] && init == alarms[..|alarms| - 1]
    requires forall i :: 0 <= i < |alarms| && Due(alarms[i], clock) ==> Key(alarms[i], clock) !in keys
    requires forall i :: 0 <= i < |init| && Due(init[i], clock) ==> Key(init[i], clock) in before
    requires forall j :: 0 <= j < |before| ==> before[j] in after
    requires var alarm := alarms[|alarms| - 1];
      Due(alarm, clock) && Key(alarm, clock) !in keys ==> Key(alarm, clock) in after
    ensures forall i :: 0 <= i < |alarms| && Due(alarms[i], clock) ==> Key(alarms[i], clock) in after
  {
    forall i | 0 <= i < |alarms| && Due(alarms[i], clock)
      ensures Key(alarms[i], clock) in after
    {
      if i < |init| {
        assert init[i] == alarms[i];
      }
    }
  }

  /** Keys of a list of fired alarms stay among the keys when more fire. */
  lemma KeysOfGrow(a: seq<Alarm>, b: seq<Alarm>, clock: Clock)
    ensures forall k :: k in KeysOf(a, clock) ==> k in KeysOf(a + b, clock)
  {
    forall k | k in KeysOf(a, clock)
      ensures k in KeysOf(a + b, clock)
    {
      var i :| 0 <= i < |a| && KeysOf(a, clock)[i] == k;
      assert KeysOf(a + b, clock)[i] == k;
    }
  }

  /** The last alarm of the list, when due and fresh, has its key among the
      keys of the alarms fired in the tick. */
  lemma LastDueRecorded(keys: seq<string>, alarms: seq<Alarm>, clock: Clock)
    requires alarms != []
    requires |Run(keys, alarms, clock).fired| <= EvictCount + 1
    ensures var alarm := alarms[|alarms| - 1];
      Due(alarm, clock) && Key(alarm, clock) !in keys ==>
      Key(alarm, clock) in KeysOf(Run(keys, alarms, clock).fired, clock)
  {
    var init := alarms[..|alarms| - 1];
    var alarm := alarms[|alarms| - 1];
    var prev := Run(keys, init, clock);
    var fired := Run(keys, alarms, clock).fired;
    if Due(alarm, clock) && Key(alarm, clock) !in keys {
      if Fires(prev.keys, alarm, clock) {
        assert KeysOf(fired, clock)[|fired| - 1] == Key(alarm, clock);
      } else {
        var j := RunKeepsNewKeys(keys, init, clock);
        assert Key(alarm, clock) in prev.keys;
        assert Key(alarm, clock) !in keys[j..];
        assert fired == prev.fired;
      }
    }
  }

  /** A tick in which every due alarm's key is already recorded fires
      nothing and changes nothing. */
  lemma {:induction false} RunQuiet(keys: seq<string>, alarms: seq<Alarm>, clock: Clock)
    requires forall i :: 0 <= i < |alarms| && Due(alarms[i], clock) ==> Key(alarms[i], clock) in keys
    ensures Run(keys, alarms, clock) == TickResult(keys, [])
    decreases |alarms|
  {
    if alarms != [] {
      RunQuiet(keys, alarms[..|alarms| - 1], clock);
    }
  }

  /** Running the check again with the same time, weekday and date fires
      nothing, and the key set stays as it is, so every later tick in that
      minute is silent too. Holds when the first tick was fresh for the due
      alarms and fired at most 51 of them. */
  lemma TickIdempotent(keys: seq<string>, alarms: seq<Alarm>, clock: Clock)
    requires forall i :: 0 <= i < |alarms| && Due(alarms[i], clock) ==> Key(alarms[i], clock) !in keys
    requires |Run(keys, alarms, clock).fired| <= EvictCount + 1
    ensures var first := Run(keys, alarms, clock);
      Run(first.keys, alarms, clock) == TickResult(first.keys, [])
  {
    var first := Run(keys, alarms, clock);
    var j := RunKeepsNewKeys(keys, alarms, clock);
    RunRecordsAllDue(keys, alarms, clock);
    RunQuiet(first.keys, alarms, clock);
  }

  // ---------------------------------------------------------------------
  // Keys

  /** Where the last `c` of `s` is, if there is one: the proof of
      `KeyInjective` reads a key back from its last dash. */
  function LastIndexOf(s: string, c: char): (r: Option<nat>)
    ensures r.Some? ==> r.value < |s| && s[r.value] == c && c !in s[r.value + 1..]
    ensures r.None? <==> c !in s
  {
    if s == [] then None
    else if s[|s| - 1] == c then Some(|s| - 1)
    else LastIndexOf(s[..|s| - 1], c)
  }

  lemma {:induction false} LastIndexOfPastTail(p: string, d: string, c: char)
    requires p != [] && p[|p| - 1] == c && c !in d
    ensures LastIndexOf(p + d, c) == Some(|p| - 1)
    decreases |d|
  {
    if d == [] {
      assert p + d == p;
    } else {
      assert (p + d)[..|p + d| - 1] == p + d[..|d| - 1];
      LastIndexOfPastTail(p, d[..|d| - 1], c);
    }
  }

  /** Distinct occurrences have distinct keys: equal keys mean the same id,
      the same minute and the same day of the month, even when ids contain
      dashes. */
  lemma KeyInjective(a: Alarm, ca: Clock, b: Alarm, cb: Clock)
    requires Key(a, ca) == Key(b, cb)
    ensures a.id == b.id && ca.minute == cb.minute && ca.dayOfMonth == cb.dayOfMonth
  {
    var ta, tb := FormatHHMM(ca.minute) + "-", FormatHHMM(cb.minute) + "-";
    var da, db := NatToString(ca.dayOfMonth), NatToString(cb.dayOfMonth);
    var pa, pb := (a.id + "-") + ta, (b.id + "-") + tb;
    assert Key(a, ca) == pa + da;
    assert Key(b, cb) == pb + db;
    SplitAtLastDash(pa, da, pb, db);
    NatToStringInjective(ca.dayOfMonth, cb.dayOfMonth);
    ConcatCancel(a.id + "-", ta, b.id + "-", tb);
    ConcatCancel(a.id, "-", b.id, "-");
    ConcatCancel(FormatHHMM(ca.minute), "-", FormatHHMM(cb.minute), "-");
    FormatHHMMInjective(ca.minute, cb.minute);
  }

  /** Two texts that each end in a dash, followed by digits, are cut the
      same way by their last dash. */
  lemma SplitAtLastDash(pa: string, da: string, pb: string, db: string)
    requires pa + da == pb + db
    requires pa != [] && pa[|pa| - 1] == '-' && pb != [] && pb[|pb| - 1] == '-'
    requires AllDigits(da) && AllDigits(db)
    ensures pa == pb && da == db
  {
    assert '-' !in da && '-' !in db;
    LastIndexOfPastTail(pa, da, '-');
    LastIndexOfPastTail(pb, db, '-');
    ConcatCancel(pa, da, pb, db);
  }

  /** A one-time alarm fired on one day does not block it on another day of
      the month: the recorded key is a different one. */
  lemma OtherDayOtherKey(alarm: Alarm, today: Clock, other: Clock)
    requires today.dayOfMonth != other.dayOfMonth
    ensures Key(alarm, today) != Key(alarm, other)
  {
    if Key(alarm, today) == Key(alarm, other) {
      KeyInjective(alarm, today, alarm, other);
    }
  }

  /** The key names the day of the month and not the month: while a key
      recorded at the same minute and day of an earlier month is still held,
      the alarm does not fire. */
  lemma SameDayOfMonthBlocked(keys: seq<string>, alarm: Alarm, earlier: Clock, now: Clock)
    requires earlier.minute == now.minute && earlier.dayOfMonth == now.dayOfMonth
    requires Key(alarm, earlier) in keys
    ensures !Fires(keys, alarm, now)
  {
  }

  // ---------------------------------------------------------------------
  // The handler's state

  class TriggerEngine {
    /** `triggeredAlarms`: the dedup keys, oldest first. */
    var triggered: seq<string>

    ghost predicate Valid()
      reads this
    {
      |triggered| <= RetentionCap && NoDuplicates(triggered)
    }

    constructor ()
      ensures Valid() && triggered == []
    {
      triggered := [];
    }

    /** The clean-up: `Array.from(set).slice(0, 50)` and one `delete` per entry. */
    method EvictOldest()
      requires NoDuplicates(triggered) && |triggered| > RetentionCap
      modifies this
      ensures triggered == old(triggered)[EvictCount..]
    {
      var oldEntries := triggered[..EvictCount];
      for j := 0 to |oldEntries|
        invariant triggered == old(triggered)[j..]
      {
        NoDuplicatesSuffix(old(triggered), j);
        assert triggered[0] == oldEntries[j];
        WithoutHead(triggered);
        triggered := Without(triggered, oldEntries[j]);
        assert triggered == old(triggered)[j + 1..];
      }
    }

    /** `checkAlarms` for one tick at `clock`; `fired` lists the alarms handed
        to `triggerAlarm`, in order. */
    method CheckAlarms(alarms: seq<Alarm>, clock: Clock) returns (fired: seq<Alarm>)
      requires Valid()
      modifies this
      ensures Valid()
      ensures TickResult(triggered, fired) == Run(old(triggered), alarms, clock)
    {
      var currentTime := FormatHHMM(clock.minute);
      var currentMinute := currentTime + "-" + NatToString(clock.dayOfMonth);
      fired := [];
      for i := 0 to |alarms|
        invariant Valid()
        invariant TickResult(triggered, fired) == Run(old(triggered), alarms[..i], clock)
      {
        var alarm := alarms[i];
        RunStep(old(triggered), alarms, i, clock);
        RecordBounded(triggered, alarm, clock);
        if alarm.enabled {
          var shouldTrigger := currentTime == alarm.time;
          var alarmKey := alarm.id + "-" + currentMinute;
          if shouldTrigger && alarmKey !in triggered {
            var shouldRepeatToday := |alarm.repeat| == 0 || clock.weekday in alarm.repeat;
            if shouldRepeatToday {
              triggered := triggered + [alarmKey];
              fired := fired + [alarm];
              if |triggered| > RetentionCap {
                EvictOldest();
              }
            }
          }
        }
      }
      assert alarms[..|alarms|] == alarms;
    }
  }
}

=== FILE: search_query.dfy ===
/** `enhanceSearchQuery` (app/api/youtube/search/route.ts): the alarm label
    is extended with words chosen by the first keyword category it mentions. */
module SearchQuery {
  import opened Text

  /** A keyword category: the words looked for and the words appended. */
  datatype Category = Category(keywords: seq<string>, extra: string)

  /** The categories in the order they are tested. */
  const Categories: seq<Category> := [
    Category(["workout", "gym", "exercise"], "workout motivation music energetic songs"),
    Category(["study", "focus", "work"], "focus study music concentration instrumental"),
    Category(["meditation", "relax", "calm"], "meditation relaxing music peaceful instrumental"),
    Category(["morning", "wake", "alarm"], "morning wake up music energetic songs"),
    Category(["birthday", "celebration", "party"], "birthday celebration party songs happy music"),
    Category(["bollywood", "hindi", "indian"], "bollywood hindi indian songs music"),
    Category(["english", "pop", "western"], "english pop songs western music")
  ]

  const FallbackExtra: string := "music songs"

  predicate Mentions(text: string, category: Category) {
    exists i :: 0 <= i < |category.keywords| && Contains(text, category.keywords[i])
  }

  /** Index of the first category, from `from` on, that `text` mentions;
      `|Categories|` when there is none. */
  function FirstMatch(text: string, from: nat): (i: nat)
    requires from <= |Categories|
    ensures from <= i <= |Categories|
    ensures i < |Categories| ==> Mentions(text, Categories[i])
    ensures forall j :: from <= j < i ==> !Mentions(text, Categories[j])
    decreases |Categories| - from
  {
    if from == |Categories| then from
    else if Mentions(text, Categories[from]) then from
    else FirstMatch(text, from + 1)
  }

  /** The words the table appends for a lower-cased label. */
  function ExtraFor(lower: string): string {
    var i := FirstMatch(lower, 0);
    if i < |Categories| then Categories[i].extra else FallbackExtra
  }

  /** The if/else chain of the route on the lower-cased label: the words the
      first mentioned category contributes. */
  function ChainExtra(labelKeywords: string): string {
    if Contains(labelKeywords, "workout") || Contains(labelKeywords, "gym") || Contains(labelKeywords, "exercise") then
      "workout motivation music energetic songs"
    else if Contains(labelKeywords, "study") || Contains(labelKeywords, "focus") || Contains(labelKeywords, "work") then
      "focus study music concentration instrumental"
    else if Contains(labelKeywords, "meditation") || Contains(labelKeywords, "relax") || Contains(labelKeywords, "calm") then
      "meditation relaxing music peaceful instrumental"
    else if Contains(labelKeywords, "morning") || Contains(labelKeywords, "wake") || Contains(labelKeywords, "alarm") then
      "morning wake up music energetic songs"
    else if Contains(labelKeywords, "birthday") || Contains(labelKeywords, "celebration") || Contains(labelKeywords, "party") then
      "birthday celebration party songs happy music"
    else if Contains(labelKeywords, "bollywood") || Contains(labelKeywords, "hindi") || Contains(labelKeywords, "indian") then
      "bollywood hindi indian songs music"
    else if Contains(labelKeywords, "english") || Contains(labelKeywords, "pop") || Contains(labelKeywords, "western") then
      "english pop songs western music"
    else
      "music songs"
  }

  lemma MentionsThree(text: string, category: Category)
    requires |category.keywords| == 3
    ensures Mentions(text, category) <==>
      Contains(text, category.keywords[0]) || Contains(text, category.keywords[1]) || Contains(text, category.keywords[2])
  {
  }

  /** `FirstMatch` from `from` is the category mentioned before which none
      (from `from` on) is. */
  lemma {:induction false} FirstMatchIs(text: string, from: nat, i: nat)
    requires from <= i <= |Categories|
    requires i < |Categories| ==> Mentions(text, Categories[i])
    requires forall j :: from <= j < i ==> !Mentions(text, Categories[j])
    ensures FirstMatch(text, from) == i
    decreases i - from
  {
    if from < i {
      FirstMatchIs(text, from + 1, i);
    }
  }

  /** The chain returns the words of the `k`-th category when that is the
      first one mentioned, and the fallback when none is. */
  lemma ChainPick(lower: string, k: nat)
    requires k <= |Categories|
    requires forall j :: 0 <= j < k ==> !Mentions(lower, Categories[j])
    requires k < |Categories| ==> Mentions(lower, Categories[k])
    ensures ChainExtra(lower) == if k < |Categories| then Categories[k].extra else FallbackExtra
  {
    MentionsThree(lower, Categories[0]);
    if k == 0 { return; }
    assert !Mentions(lower, Categories[0]);
    MentionsThree(lower, Categories[1]);
    if k == 1 { return; }
    assert !Mentions(lower, Categories[1]);
    MentionsThree(lower, Categories[2]);
    if k == 2 { return; }
    assert !Mentions(lower, Categories[2]);
    MentionsThree(lower, Categories[3]);
    if k == 3 { return; }
    assert !Mentions(lower, Categories[3]);
    MentionsThree(lower, Categories[4]);
    if k == 4 { return; }
    assert !Mentions(lower, Categories[4]);
    MentionsThree(lower, Categories[5]);
    if k == 5 { return; }
    assert !Mentions(lower, Categories[5]);
    MentionsThree(lower, Categories[6]);
    if k == 6 { return; }
    assert !Mentions(lower, Categories[6]);
  }

  /** The chain and the table agree. */
  lemma ChainIsTable(lower: string)
    ensures ChainExtra(lower) == ExtraFor(lower)
  {
    ChainPick(lower, FirstMatch(lower, 0));
  }

  /** `enhanceSearchQuery(query)`: the label as given, a space, then the words
      of the first category its lower-cased form mentions, or "music songs". */
  function EnhanceSearchQuery(query: string): (r: string)
    ensures r == query + " " + ExtraFor(ToLower(query))
    ensures |r| > |query| + 1 && StartsWith(r, query + " ")
  {
    ChainIsTable(ToLower(query));
    var r := query + " " + ChainExtra(ToLower(query));
    assert r[..|query + " "|] == query + " ";
    r
  }

  lemma SuffixAfter(p: string, e: string)
    ensures (p + e)[|p|..] == e
  {
  }

  /** Matching ignores ASCII case: the words appended to a label are the ones
      chosen for any label that lower-cases alike. */
  lemma EnhanceIgnoresCase(a: string, b: string)
    requires ToLower(a) == ToLower(b)
    ensures EnhanceSearchQuery(a)[|a| + 1..] == ExtraFor(ToLower(b))
  {
    SuffixAfter(a + " ", ExtraFor(ToLower(a)));
  }

  /** A label mentioning "workout" also mentions "work" of the second
      category, and the first category wins. */
  lemma WorkoutBeforeWork(query: string)
    requires Contains(ToLower(query), "workout")
    ensures Mentions(ToLower(query), Categories[0]) && Mentions(ToLower(query), Categories[1])
    ensures EnhanceSearchQuery(query) == query + " " + "workout motivation music energetic songs"
  {
    var lower := ToLower(query);
    assert "work" + "out" == "workout";
    ContainsLonger(lower, "work", "out");
    MentionsThree(lower, Categories[0]);
    MentionsThree(lower, Categories[1]);
    FirstMatchIs(lower, 0, 0);
  }

  /** A label with no keyword of any category gets " music songs". */
  lemma NoKeywordFallback(query: string)
    requires forall i :: 0 <= i < |Categories| ==> !Mentions(ToLower(query), Categories[i])
    ensures EnhanceSearchQuery(query) == query + " " + "music songs"
  {
    FirstMatchIs(ToLower(query), 0, |Categories|);
  }

}

=== FILE: text.dfy ===
/** Sequence helpers shared by the alarm store, the editor and the trigger engine. */
module Seqs {

  predicate NoDuplicates<T(==)>(s: seq<T>) {
    forall i, j :: 0 <= i < j < |s| ==> s[i] != s[j]
  }

  /** `s.filter((y) => y !== x)`: every occurrence of `x` dropped, order kept. */
  function Without(s: seq<string>, x: string): (r: seq<string>)
    ensures forall y :: y in r <==> y in s && y != x
    ensures |r| <= |s|
  {
    if s == [] then [] else (if s[0] == x then [] else [s[0]]) + Without(s[1..], x)
  }

  /** Filtering a concatenation filters each part, so the kept elements
      stay in their order and number. */
  lemma {:induction false} WithoutConcat(s: seq<string>, t: seq<string>, x: string)
    ensures Without(s + t, x) == Without(s, x) + Without(t, x)
  {
    if s == [] {
      assert s + t == t;
    } else {
      assert (s + t)[0] == s[0] && (s + t)[1..] == s[1..] + t;
      WithoutConcat(s[1..], t, x);
    }
  }

  lemma {:induction false} WithoutAbsent(s: seq<string>, x: string)
    requires x !in s
    ensures Without(s, x) == s
  {
    if s != [] {
      WithoutAbsent(s[1..], x);
    }
  }

  /** Deleting the oldest entry of a duplicate-free sequence by value drops its head. */
  lemma WithoutHead(s: seq<string>)
    requires s != [] && NoDuplicates(s)
    ensures Without(s, s[0]) == s[1..]
  {
    assert s[0] !in s[1..];
    WithoutAbsent(s[1..], s[0]);
  }

  lemma NoDuplicatesSuffix<T>(s: seq<T>, k: nat)
    requires NoDuplicates(s) && k <= |s|
    ensures NoDuplicates(s[k..])
  {
  }
}

/** Text helpers: JavaScript's number-to-string conversion and padding,
    `trim`, ASCII `toLowerCase`, `includes`, `join` and `split`. */
module Text {
  import opened Common

  predicate IsDigit(c: char) {
    '0' <= c <= '9'
  }

  predicate AllDigits(s: string) {
    forall i :: 0 <= i < |s| ==> IsDigit(s[i])
  }

  function DigitValue(c: char): (d: nat)
    requires IsDigit(c)
    ensures d < 10
  {
    c as int - '0' as int
  }

  function DigitChar(d: nat): (c: char)
    requires d < 10
    ensures IsDigit(c) && DigitValue(c) == d
  {
    ('0' as int + d) as char
  }

  /** The decimal rendering of a non-negative integer, as a template literal
      prints it: digits only, no sign, no leading zero. */
  function NatToString(n: nat): (s: string)
    ensures 1 <= |s| && AllDigits(s)
    ensures |s| > 1 ==> s[0] != '0'
    ensures n < 10 <==> |s| == 1
  {
    if n < 10 then [DigitChar(n)] else NatToString(n / 10) + [DigitChar(n % 10)]
  }

  /** The value of a string of decimal digits (`Number(s)` on such a string). */
  function DigitsValue(s: string): nat
    requires AllDigits(s)
  {
    if s == [] then 0 else DigitsValue(s[..|s| - 1]) * 10 + DigitValue(s[|s| - 1])
  }

  lemma {:induction false} DigitsValueOfNatToString(n: nat)
    ensures DigitsValue(NatToString(n)) == n
  {
    var s := NatToString(n);
    if n < 10 {
      assert s[..|s| - 1] == [];
    } else {
      assert s[..|s| - 1] == NatToString(n / 10);
      DigitsValueOfNatToString(n / 10);
    }
  }

  lemma NatToStringInjective(a: nat, b: nat)
    requires NatToString(a) == NatToString(b)
    ensures a == b
  {
    DigitsValueOfNatToString(a);
    DigitsValueOfNatToString(b);
  }

  /** `n.toString().padStart(2, "0")`: at least two digits, and still the value `n`. */
  function PadStart2(n: nat): (s: string)
    ensures AllDigits(s) && DigitsValue(s) == n
    ensures n < 100 ==> |s| == 2
    ensures n >= 10 ==> s == NatToString(n)
  {
    DigitsValueOfNatToString(n);
    if n < 10 then
      var s := "0" + NatToString(n);
      assert s[..|s| - 1] == "0";
      assert DigitsValue("0") == DigitsValue("0"[..0]) * 10 + 0;
      s
    else
      NatToString(n)
  }

  /** Whitespace and line terminators as ECMAScript's `String.prototype.trim`
      strips them: tab, line feed, vertical tab, form feed, carriage return,
      space, no-break space, the Unicode space separators (U+1680, U+2000 to
      U+200A, U+202F, U+205F, U+3000), the line and paragraph separators and
      the byte order mark. */
  const Whitespace: set<char> := {
    '\t', '\n', '\U{000B}', '\U{000C}', '\r', ' ', '\U{00A0}', '\U{1680}',
    '\U{2000}', '\U{2001}', '\U{2002}', '\U{2003}', '\U{2004}', '\U{2005}',
    '\U{2006}', '\U{2007}', '\U{2008}', '\U{2009}', '\U{200A}',
    '\U{2028}', '\U{2029}', '\U{202F}', '\U{205F}', '\U{3000}', '\U{FEFF}'
  }

  predicate IsWhitespace(c: char) {
    c in Whitespace
  }

  /** JavaScript's `s.length`: UTF-16 code units, so a character beyond
      U+FFFF (a surrogate pair) counts twice. */
  function Utf16Length(s: string): (n: nat)
    ensures |s| <= n <= 2 * |s|
    ensures s == [] ==> n == 0
    ensures (forall i :: 0 <= i < |s| ==> s[i] as int < 0x1_0000) ==> n == |s|
  {
    if s == [] then 0 else CodeUnits(s[0]) + Utf16Length(s[1..])
  }

  /** Code units of one character: two for a surrogate pair. */
  function CodeUnits(c: char): nat {
    if c as int >= 0x1_0000 then 2 else 1
  }

  /** Appending a character adds its own code units: the count goes one
      character at a time, whichever end the text grows at. */
  lemma {:induction false} Utf16LengthAppend(s: string, c: char)
    ensures Utf16Length(s + [c]) == Utf16Length(s) + CodeUnits(c)
  {
    if s == [] {
      assert s + [c] == [c] && [c][1..] == [];
    } else {
      assert (s + [c])[0] == s[0] && (s + [c])[1..] == s[1..] + [c];
      Utf16LengthAppend(s[1..], c);
    }
  }

  predicate AllWhitespace(s: string) {
    forall i :: 0 <= i < |s| ==> IsWhitespace(s[i])
  }

  /** How many whitespace characters `s` starts with. */
  function LeadingSpace(s: string): (k: nat)
    ensures k <= |s|
    ensures forall i :: 0 <= i < k ==> IsWhitespace(s[i])
    ensures k < |s| ==> !IsWhitespace(s[k])
  {
    if s != [] && IsWhitespace(s[0]) then 1 + LeadingSpace(s[1..]) else 0
  }

  /** How many whitespace characters `s` ends with. */
  function TrailingSpace(s: string): (k: nat)
    ensures k <= |s|
    ensures forall i :: |s| - k <= i < |s| ==> IsWhitespace(s[i])
    ensures k < |s| ==> !IsWhitespace(s[|s| - k - 1])
  {
    if s != [] && IsWhitespace(s[|s| - 1]) then 1 + TrailingSpace(s[..|s| - 1]) else 0
  }

  /** `s.trim()`: the leading whitespace cut off, then the trailing
      whitespace of what is left. Empty exactly when `s` is all whitespace,
      otherwise it neither starts nor ends with whitespace. */
  function Trim(s: string): (r: string)
    ensures r == [] <==> AllWhitespace(s)
    ensures r != [] ==> !IsWhitespace(r[0]) && !IsWhitespace(r[|r| - 1])
    ensures |r| <= |s|
    ensures var a := LeadingSpace(s);
      && a + |r| <= |s| && s[a..a + |r|] == r
      && AllWhitespace(s[..a]) && AllWhitespace(s[a + |r|..])
  {
    var a := LeadingSpace(s);
    var t := s[a..];
    var r := t[..|t| - TrailingSpace(t)];
    TrimFacts(s, a, t, r);
    r
  }

  lemma TrimFacts(s: string, a: nat, t: string, r: string)
    requires a == LeadingSpace(s) && t == s[a..] && r == t[..|t| - TrailingSpace(t)]
    ensures r == [] <==> AllWhitespace(s)
    ensures r != [] ==> !IsWhitespace(r[0]) && !IsWhitespace(r[|r| - 1])
    ensures a + |r| <= |s| && s[a..a + |r|] == r
    ensures AllWhitespace(s[..a]) && AllWhitespace(s[a + |r|..])
  {
    TrimEmpty(s, a, t, r);
    TrimMiddle(s, a, t, r);
  }

  /** The trimmed text is the part of `s` between its leading and its
      trailing whitespace. */
  lemma TrimMiddle(s: string, a: nat, t: string, r: string)
    requires a == LeadingSpace(s) && t == s[a..] && r == t[..|t| - TrailingSpace(t)]
    ensures a + |r| <= |s| && s[a..a + |r|] == r
    ensures AllWhitespace(s[..a]) && AllWhitespace(s[a + |r|..])
  {
    WhitespacePrefix(s, a);
    WhitespaceSuffix(t, |r|);
    assert s[a + |r|..] == t[|r|..];
  }

  lemma WhitespacePrefix(s: string, k: nat)
    requires k <= |s| && forall i :: 0 <= i < k ==> IsWhitespace(s[i])
    ensures AllWhitespace(s[..k])
  {
    assert forall i :: 0 <= i < k ==> s[..k][i] == s[i];
  }

  lemma WhitespaceSuffix(s: string, k: nat)
    requires k <= |s| && forall i :: k <= i < |s| ==> IsWhitespace(s[i])
    ensures AllWhitespace(s[k..])
  {
    assert forall i :: 0 <= i < |s| - k ==> s[k..][i] == s[k + i];
  }

  lemma TrimEmpty(s: string, a: nat, t: string, r: string)
    requires a == LeadingSpace(s) && t == s[a..] && r == t[..|t| - TrailingSpace(t)]
    ensures r == [] <==> AllWhitespace(s)
  {
    var b := TrailingSpace(t);
    assert a < |s| ==> t[0] == s[a];
    if r == [] {
      assert a == |s|;
    }
    if a < |s| {
      assert !IsWhitespace(t[0]);
    }
  }

  lemma TrimIdempotent(s: string)
    ensures Trim(Trim(s)) == Trim(s)
  {
    var r := Trim(s);
    if r != [] {
      assert LeadingSpace(r) == 0;
      assert r[0..] == r;
      assert TrailingSpace(r) == 0;
    }
  }

  /** ASCII case folding, as `toLowerCase` does on ASCII letters. */
  function LowerChar(c: char): char {
    if 'A' <= c <= 'Z' then (c as int + 32) as char else c
  }

  function ToLower(s: string): (r: string)
    ensures |r| == |s|
    ensures forall i :: 0 <= i < |s| ==> r[i] == LowerChar(s[i])
  {
    if s == [] then [] else [LowerChar(s[0])] + ToLower(s[1..])
  }

  predicate StartsWith(s: string, prefix: string) {
    |prefix| <= |s| && s[..|prefix|] == prefix
  }

  /** `s.includes(sub)` */
  predicate Contains(s: string, sub: string)
    decreases |s|
  {
    StartsWith(s, sub) || (s != [] && Contains(s[1..], sub))
  }

  /** A string that contains `a + b` contains `a`: e.g. "workout" implies "work". */
  lemma {:induction false} ContainsLonger(s: string, a: string, b: string)
    requires Contains(s, a + b)
    ensures Contains(s, a)
    decreases |s|
  {
    if StartsWith(s, a + b) {
      assert s[..|a|] == (a + b)[..|a|] == a;
    } else {
      ContainsLonger(s[1..], a, b);
    }
  }

  /** Equal concatenations with equally long first parts have equal parts. */
  lemma ConcatCancel(x: string, s: string, y: string, t: string)
    requires x + s == y + t && |x| == |y|
    ensures x == y && s == t
  {
    assert x == (x + s)[..|x|] && s == (x + s)[|x|..];
    assert y == (y + t)[..|y|] && t == (y + t)[|y|..];
  }

  /** `xs.join(sep)` */
  function Join(xs: seq<string>, sep: string): string {
    if |xs| == 0 then ""
    else if |xs| == 1 then xs[0]
    else xs[0] + sep + Join(xs[1..], sep)
  }

  /** `s.split(sep)` for a non-empty separator: the leftmost occurrences of
      `sep` cut `s` into pieces, `cur` being the piece read so far. */
  function SplitFrom(s: string, sep: string, cur: string): (parts: seq<string>)
    requires |sep| > 0
    ensures |parts| >= 1
    decreases |s|
  {
    if s == [] then [cur]
    else if StartsWith(s, sep) then [cur] + SplitFrom(s[|sep|..], sep, "")
    else SplitFrom(s[1..], sep, cur + [s[0]])
  }

  function Split(s: string, sep: string): (parts: seq<string>)
    requires |sep| > 0
    ensures |parts| >= 1
  {
    SplitFrom(s, sep, "")
  }

  lemma {:induction false} SplitFromSkips(x: string, rest: string, sep: string, cur: string)
    requires |sep| > 0 && sep[0] !in x
    ensures SplitFrom(x + rest, sep, cur) == SplitFrom(rest, sep, cur + x)
    decreases |x|
  {
    if x != [] {
      var s := x + rest;
      assert s[0] == x[0] && s[1..] == x[1..] + rest;
      assert s[0] != sep[0];
      if |sep| <= |s| {
        assert s[..|sep|][0] == s[0];
      }
      SplitFromSkips(x[1..], rest, sep, cur + [x[0]]);
      assert cur + [x[0]] + x[1..] == cur + x;
    } else {
      assert x + rest == rest && cur + x == cur;
    }
  }

  /** Splitting a joined list recovers the list when no element holds the
      separator's first character. */
  lemma {:induction false} SplitJoin(xs: seq<string>, sep: string)
    requires |sep| > 0 && |xs| >= 1
    requires forall i :: 0 <= i < |xs| ==> sep[0] !in xs[i]
    ensures Split(Join(xs, sep), sep) == xs
  {
    if |xs| == 1 {
      SplitFromSkips(xs[0], "", sep, "");
      assert xs[0] + "" == xs[0] && "" + xs[0] == xs[0];
      assert SplitFrom("", sep, xs[0]) == [xs[0]];
    } else {
      var rest := Join(xs[1..], sep);
      SplitFromSkips(xs[0], sep + rest, sep, "");
      assert "" + xs[0] == xs[0];
      assert xs[0] + sep + rest == xs[0] + (sep + rest);
      assert StartsWith(sep + rest, sep) && (sep + rest)[|sep|..] == rest;
      SplitJoin(xs[1..], sep);
      assert xs == [xs[0]] + xs[1..];
    }
  }
}

=== FILE: time_of_day.dfy ===
/** Wall-clock time of day at minute resolution, and its canonical 24-hour
    `HH:MM` text, the form in which alarms store their time. */
module TimeOfDay {
  import opened Common
  import opened Text

  const MinutesPerDay: int := 1440

  type MinuteOfDay = m: int | 0 <= m < MinutesPerDay

  /** `Date.toTimeString().slice(0, 5)` for the minute `m` after midnight:
      zero-padded hours and minutes separated by a colon. */
  function FormatHHMM(m: MinuteOfDay): (s: string)
    ensures |s| == 5 && s[2] == ':'
    ensures AllDigits(s[..2]) && AllDigits(s[3..])
  {
    var s := PadStart2(m / 60) + ":" + PadStart2(m % 60);
    assert s[..2] == PadStart2(m / 60) && s[3..] == PadStart2(m % 60);
    s
  }

  function TwoDigitValue(s: string): nat
    requires |s| == 2 && AllDigits(s)
  {
    DigitValue(s[0]) * 10 + DigitValue(s[1])
  }

  lemma TwoDigitsValue(s: string)
    requires |s| == 2 && AllDigits(s)
    ensures DigitsValue(s) == TwoDigitValue(s)
  {
    assert s[..1] == [s[0]] && s[..1][..0] == [];
    assert DigitsValue(s[..1]) == DigitValue(s[0]);
  }

  lemma TwoDigitsUnique(a: string, b: string)
    requires |a| == 2 && AllDigits(a) && |b| == 2 && AllDigits(b)
    requires TwoDigitValue(a) == TwoDigitValue(b)
    ensures a == b
  {
    assert a[0] == b[0] && a[1] == b[1];
  }

  /** `time.split(":").map(Number)` on a canonical `HH:MM` string, as minutes
      after midnight; `None` for text that is not a valid canonical time. */
  function ParseHHMM(s: string): Option<MinuteOfDay> {
    if |s| == 5 && s[2] == ':' && AllDigits(s[..2]) && AllDigits(s[3..])
       && TwoDigitValue(s[..2]) < 24 && TwoDigitValue(s[3..]) < 60
    then Some(TwoDigitValue(s[..2]) * 60 + TwoDigitValue(s[3..]))
    else None
  }

  /** Reading back the text of a minute gives that minute. */
  lemma ParseFormatHHMM(m: MinuteOfDay)
    ensures ParseHHMM(FormatHHMM(m)) == Some(m)
  {
    var s := FormatHHMM(m);
    assert s[..2] == PadStart2(m / 60) && s[3..] == PadStart2(m % 60);
    TwoDigitsValue(s[..2]);
    TwoDigitsValue(s[3..]);
  }

  /** Every valid `HH:MM` text is the text of the minute it denotes. */
  lemma FormatParseHHMM(s: string, m: MinuteOfDay)
    requires ParseHHMM(s) == Some(m)
    ensures FormatHHMM(m) == s
  {
    var f := FormatHHMM(m);
    var hh, mm := TwoDigitValue(s[..2]), TwoDigitValue(s[3..]);
    assert m / 60 == hh && m % 60 == mm;
    assert f[..2] == PadStart2(hh) && f[3..] == PadStart2(mm);
    TwoDigitsValue(f[..2]);
    TwoDigitsValue(f[3..]);
    TwoDigitsValue(s[..2]);
    TwoDigitsValue(s[3..]);
    TwoDigitsUnique(f[..2], s[..2]);
    TwoDigitsUnique(f[3..], s[3..]);
    assert f == f[..2] + [f[2]] + f[3..];
    assert s == s[..2] + [s[2]] + s[3..];
  }

  lemma FormatHHMMInjective(a: MinuteOfDay, b: MinuteOfDay)
    requires FormatHHMM(a) == FormatHHMM(b)
    ensures a == b
  {
    ParseFormatHHMM(a);
    ParseFormatHHMM(b);
  }
}

=== FILE: youtube.dfy ===
/** URL builders for thumbnails and the embedded player (lib/youtube-api.ts). */
module YouTube {
  import opened Text

  datatype Quality = Default | Medium | High

  const ThumbnailBase: string := "https://img.youtube.com/vi/"
  const EmbedBase: string := "https://www.youtube.com/embed/"
  const EmbedParams: string := "?autoplay=1&controls=1&rel=0"

  /** The `qualityMap` lookup: each quality has its own file name. */
  function QualityName(quality: Quality): (name: string)
    ensures name == "default" <==> quality == Default
    ensures name == "mqdefault" <==> quality == Medium
    ensures name == "hqdefault" <==> quality == High
  {
    match quality
    case Default => "default"
    case Medium => "mqdefault"
    case High => "hqdefault"
  }

  /** `getYouTubeThumbnail(videoId, quality = "medium")`: the video id sits
      right after the base, and the file named after the quality ends the URL. */
  function Thumbnail(videoId: string, quality: Quality := Medium): (url: string)
    ensures StartsWith(url, ThumbnailBase)
    ensures |url| == |ThumbnailBase| + |videoId| + |QualityName(quality)| + 5
    ensures url[|ThumbnailBase|..|ThumbnailBase| + |videoId|] == videoId
    ensures url[|ThumbnailBase| + |videoId|..] == "/" + QualityName(quality) + ".jpg"
  {
    var url := ThumbnailBase + videoId + "/" + QualityName(quality) + ".jpg";
    assert url[..|ThumbnailBase|] == ThumbnailBase;
    url
  }

  /** The file part of the URL: a slash, the quality's file name, ".jpg". */
  function FilePart(quality: Quality): string {
    "/" + QualityName(quality) + ".jpg"
  }

  lemma FilePartMarkers(quality: Quality)
    ensures var f := FilePart(quality);
      && |f| >= 12 && (quality != Default ==> |f| == 14)
      && (f[|f| - 12] == '/' <==> quality == Default)
      && (quality != Default ==> (f[|f| - 13] == 'm' <==> quality == Medium))
  {
    var f := FilePart(quality);
    var name := QualityName(quality);
    assert f[0] == '/' && |f| == |name| + 5;
    assert forall i :: 0 <= i < |name| ==> f[i + 1] == name[i];
  }

  /** The character 12 places from the end of a thumbnail URL is '/' only for
      the default quality; 13 places from the end tells "mq" from "hq". */
  lemma ThumbnailMarkers(videoId: string, quality: Quality)
    ensures var url := Thumbnail(videoId, quality);
      && (url[|url| - 12] == '/' <==> quality == Default)
      && (quality != Default ==> (url[|url| - 13] == 'm' <==> quality == Medium))
  {
    var url := Thumbnail(videoId, quality);
    var f := url[|ThumbnailBase| + |videoId|..];
    assert f == FilePart(quality);
    FilePartMarkers(quality);
    assert url[|url| - 12] == f[|f| - 12];
    if quality != Default {
      assert url[|url| - 13] == f[|f| - 13];
    }
  }

  /** Distinct (video, quality) pairs give distinct thumbnail URLs, whatever
      characters the video id holds. */
  lemma ThumbnailInjective(a: string, qa: Quality, b: string, qb: Quality)
    requires Thumbnail(a, qa) == Thumbnail(b, qb)
    ensures a == b && qa == qb
  {
    ThumbnailMarkers(a, qa);
    ThumbnailMarkers(b, qb);
    assert qa == qb;
    assert |a| == |b|;
  }

  /** `getYouTubeEmbedUrl(videoId)`: the id can be read back between the
      embed base and the fixed player parameters. */
  function EmbedUrl(videoId: string): (url: string)
    ensures StartsWith(url, EmbedBase)
    ensures |url| == |EmbedBase| + |videoId| + |EmbedParams|
    ensures url[|url| - |EmbedParams|..] == EmbedParams
    ensures url[|EmbedBase|..|url| - |EmbedParams|] == videoId
  {
    var url := EmbedBase + videoId + EmbedParams;
    assert url[..|EmbedBase|] == EmbedBase;
    url
  }
}
